=== FILE: README.md ===
# PyNano split view, tabs and main window: a Dafny model

This project models the core of PyNano, a PyQt6 text editor, as pure Dafny
functions over immutable datatypes, and proves properties of them. The
modelled parts are:

- the split-view manager (`src/ui/split_view.py`). It keeps a list of editor
  panes and a tree of splitters arranging them. Dropping a file or a dragged
  tab on an edge of a pane splits that pane. Closing a pane collapses its
  splitter. When the view is split for the first time, the window size is
  remembered; when the view returns to one pane, the window gets that size
  back.
- the drop-zone overlay of a pane: which edge the cursor is nearest to, and
  the half of the pane that edge highlights.
- the tab widget (`src/ui/tab_widget.py`). Each pane has one. It opens,
  edits, saves and closes tabs, keeps the tab titles (with the ` *`
  modified marker) in step with their documents, and refuses to close its
  last tab, emitting `last_tab_closed` instead. Its tab bar starts a drag
  once the pointer has moved far enough.
- the editor's line-number gutter width and its current-line highlight
  (`src/editor/text_editor.py`).
- the main window (`src/ui/main_window.py`): the window title, the
  file-explorer toggle, the close decision, and opening a file chosen in the
  explorer.

Modules follow the source: `DropZone`, `PaneLayout` (the splitter tree) and
`SplitView` for `split_view.py`; `Tabs` and `TabBar` for `tab_widget.py`;
`TextEditor`; `MainWindow`. `Common` holds `Option` and sequence helpers.

Things outside the program become parameters:

- A file read is an `Option<string>`: `None` when the read raises.
- A file write is a `bool` saying whether it succeeded.
- The window size, the splitter sizes, the width of a digit in the editor
  font, and the toolkit's drag threshold are inputs.
- A window resize, and the signals a widget emits explicitly, are returned
  as values.

The main invariant is `SplitView.Valid`:

- at least one pane is open;
- the panes in the list and the panes in the splitter tree are the same
  panes, each appearing once;
- every pane's tab list is valid: tab titles match their documents, and the
  current index is on a tab;
- the view counts as split exactly when more than one pane is open.

Every operation of the manager keeps this invariant.

## Model

| member | source | states |
|---|---|---|
| DropZone.ParseZone | src/ui/split_view.py:62-70 | a zone name is read back to exactly the zone it names, and any other string names no zone |
| DropZone.GetZoneAt | src/ui/split_view.py:35-55 | the chosen zone is at the least distance from the point, and every zone earlier in the order top, bottom, left, right is strictly farther |
| DropZone.ZoneAtUnique | src/ui/split_view.py:41-55 | any zone that is nearest and beats every earlier-ranked zone strictly is the one `get_zone_at` returns |
| DropZone.ZoneRect | src/ui/split_view.py:62-69 | each zone's rectangle lies inside the widget and covers the full width (top/bottom) or height (left/right), with the other side floor-halved |
| DropZone.ZoneRectsTile | src/ui/split_view.py:62-69 | bottom starts where top ends and right where left ends, and opposite halves have the same size |
| DropZone.GetZoneRect | src/ui/split_view.py:57-70 | a valid zone name gives that zone's half; any other name gives the empty rectangle |
| DropZone.PointLiesInItsZone | src/ui/split_view.py:35-69 | a point inside the widget lies in the rectangle of the zone chosen for it |
| DropZone.ShowZones | src/ui/split_view.py:22-27 | the overlay becomes visible and keeps its highlighted zone; the repaint it requests is unconditional and not returned |
| DropZone.HideZones | src/ui/split_view.py:29-33 | the overlay is hidden and forgets its zone, which is its initial state |
| DropZone.SetActiveZone | src/ui/split_view.py:72-76 | the zone is recorded, and a repaint is requested exactly when it differs from the previous one |
| DropZone.SetActiveZoneIdempotent | src/ui/split_view.py:72-76 | setting the same zone again changes nothing and requests no repaint |
| DropZone.HideResets | src/ui/split_view.py:22-33 | hiding after showing and highlighting returns the overlay to its initial state |
| DropZone.PinnedZones | tests/test_split_view_extended.py:36-117 | the zones and rectangles of a 100 by 100 overlay are the ones the test suite expects |
| PaneLayout.LeavesAndSplitters | src/ui/split_view.py:252-279 | the layout has one pane more than it has splitters |
| PaneLayout.SplitLeaf | src/ui/split_view.py:255-279 | splitting replaces the split pane, in place, by that pane and the new pane (new one first for left and top); the new two-pane splitter is in the result; other panes keep their order |
| PaneLayout.SplitLeafAddsOneSplitter | src/ui/split_view.py:252-253 | a split adds exactly one splitter |
| PaneLayout.RemoveLeaf | src/ui/split_view.py:356-379 | closing a pane removes it from the on-screen order; at the outermost splitter the sibling becomes the whole layout, and below it the untouched child is kept (the deep case is `RemoveLeafCollapsesSplitter`) |
| PaneLayout.RemoveLeafCollapsesSplitter | src/ui/split_view.py:362-379 | at any depth, closing a pane equals substituting its sibling subtree, unchanged, for the splitter that held both; nothing else in the layout changes |
| PaneLayout.RemoveLeafDropsOneSplitter | src/ui/split_view.py:362-379 | closing a pane removes exactly one splitter |
| PaneLayout.SplitThenCloseRestores | src/ui/split_view.py:255-379 | splitting a pane and then closing the new pane restores the layout exactly |
| PaneLayout.ReplaceLeaf | src/ui/split_view.py:299-308 | in the corrected drop of a pane's only tab on that pane, the new pane takes the old pane's slot: the splitters keep their nesting and orientations (`SameShape`), and only that entry of the on-screen order changes |
| PaneLayout.ReplaceLeafUndo | src/ui/split_view.py:299-308 | putting the old pane back in the slot gives back the original layout, so the replacement changes nothing but that slot |
| PaneLayout.SingleLeaf | src/ui/split_view.py:362-375 | a layout with one pane is that pane alone, with no splitter |
| SplitView.Init | src/ui/split_view.py:171-184 | the new manager is valid, holds one pane and is neither split nor holding a size |
| SplitView.PaneIndex | src/ui/split_view.py:353-356 | the position of an open pane, and no position exactly for a pane that is not open |
| SplitView.LayoutMatchesPanes | src/ui/split_view.py:237-384 | the panes of the layout are exactly the open panes |
| SplitView.StoreOriginalSize | src/ui/split_view.py:225-228 | a size is recorded only while none is |
| SplitView.StoreOriginalSizeWriteOnce | src/ui/split_view.py:225-228 | after two stores the first size is kept |
| SplitView.RestoreOriginalSize | src/ui/split_view.py:392-398 | the remembered size is handed to the window, and is then forgotten |
| SplitView.BeforeSplit | src/ui/split_view.py:232-235 | a size is remembered only when the view is not split yet, and nothing else changes |
| SplitView.Attach | src/ui/split_view.py:237-282 | the new pane is listed last, the target pane is split to hold it, and the manager is valid and split |
| SplitView.HandleSplit | src/ui/split_view.py:230-282 | one new pane, holding the dropped file (or a fresh document when there is no path or the read fails), is split into the pane it was dropped on; the earlier panes are unchanged and the view is split |
| SplitView.DropPane | src/ui/split_view.py:356-379 | exactly that pane leaves the list; the layout is the one `RemoveLeaf` gives, with the sibling in the collapsed splitter's slot; the flag and the size are untouched |
| SplitView.ClosePane | src/ui/split_view.py:351-386 | closes exactly when the pane is open and not the last one; then only that pane goes, and the layout collapses its splitter into the parent's slot (`RemoveLeaf`); with one pane left the view is unsplit and the remembered size is handed back |
| SplitView.ClosePaneKeepsOthers | src/ui/split_view.py:351-379 | closing one pane keeps every other pane open with its tabs |
| SplitView.CloseLastPane | src/ui/split_view.py:403 | closing the last listed pane drops the last entry and keeps the order of the rest |
| SplitView.CloseAllSplits | src/ui/split_view.py:400-403 | only the first pane is left, alone in the layout, unsplit, and the window gets its remembered size back if any pane was closed |
| SplitView.SplitCount | src/ui/split_view.py:405-407 | the count is the number of panes in the layout, one more than the splitters, and is above one exactly when the view is split |
| SplitView.PrimaryTabs | src/ui/split_view.py:204-209 | the first pane's tab widget, or none without panes |
| SplitView.CurrentDocument | src/ui/split_view.py:218-223 | the first pane's current document, which always exists in a valid manager |
| SplitView.CurrentEditorText | src/ui/split_view.py:211-216 | the first pane's current editor text, which always exists in a valid manager |
| SplitView.ReceiveTab | src/ui/split_view.py:299-306 | the receiving pane's one tab takes over the dragged tab's text, path and modified flag |
| SplitView.HandleTabSplit | src/ui/split_view.py:284-349 | the window size is remembered before the first split whether or not the index is valid, and kept except when the corrected own-only-tab case leaves one pane and hands it back; an index outside the origin's tabs does nothing else; otherwise the last pane is a new one holding the dragged tab, and the origin closes when that was its only tab; the manager stays valid |
| SplitView.TabSplitKeepsOrigin | src/ui/split_view.py:295-349 | when the origin has other tabs, it keeps exactly those, every other pane is unchanged, and the new pane is split into the target |
| SplitView.TabSplitMovesLastTab | src/ui/split_view.py:295-349 | the only tab of a pane dropped on another pane: the origin leaves the list and its splitter collapses, and the new pane is split into the target |
| SplitView.TabSplitOntoItself | src/ui/split_view.py:295-308 | the corrected case of a pane's only tab dropped on that pane: the new pane takes its slot, and the split flag and the size follow the pane count: with other panes left it stays split and keeps the remembered size, alone it is unsplit and the size is handed back |
| SplitView.SplitOffTab | src/ui/split_view.py:295-349 | the tab leaves an origin that keeps other tabs, and a new pane holding it is split into the target; the other panes are unchanged |
| SplitView.MoveLastTab | src/ui/split_view.py:295-349 | the only tab of a pane dropped on another pane: the origin pane closes and the new pane is listed last; the view stays split |
| SplitView.TakeOverPane | src/ui/split_view.py:295-308 | the only tab of a pane dropped on that pane: the new pane takes its layout slot, and the flag and the size follow the pane count |
| SplitView.TakePlace | src/ui/split_view.py:299-308 | the new pane replaces the old one in the layout slot and is listed last; the splitters keep their nesting and orientations |
| SplitView.OwnLastTabSplitBreaksFlag | src/ui/split_view.py:286-349 | as written, a fresh window whose only tab is dragged onto its own pane ends with one pane marked split and no remembered size |
| SplitView.OwnLastTabSplitCorrected | src/ui/split_view.py:286-349 | the corrected operation on that input leaves one unsplit pane holding the tab, and hands back the window size |
| Tabs.BaseName | src/ui/tab_widget.py:173 | the base name contains no '/' and is no longer than the path |
| Tabs.BaseNameIsLastPart | src/ui/tab_widget.py:173 | the base name is the end of the path and starts right after its last '/' |
| Tabs.BaseNameOfPlainName | src/ui/tab_widget.py:173 | a path without '/' is its own base name |
| Tabs.TitleShowsModified | src/ui/tab_widget.py:197-205 | a tab title ends in the modified marker exactly when the document is modified |
| Tabs.IndexOf | src/ui/tab_widget.py:201 | the first position holding the tab, or none exactly when the tab is not listed |
| Tabs.NewTab | src/ui/tab_widget.py:158-186 | one tab with a fresh identity is appended and made current; it holds the file, or an empty document when there is no path or the read fails |
| Tabs.Initial | src/ui/tab_widget.py:140-156 | a new widget is valid and holds one empty, clean tab |
| Tabs.UpdateTabTitle | src/ui/tab_widget.py:197-205 | only the tab with that identity is retitled from its document; a tab that is not listed changes nothing |
| Tabs.Rewrite | src/ui/tab_widget.py:197-205 | the tab at the position gets the new document and text and the matching title, and every other tab is unchanged |
| Tabs.RewriteIsUpdateTitle | src/ui/tab_widget.py:197-205 | changing a tab's document and then retitling it by identity changes only that tab |
| Tabs.OnTextChanged | src/ui/tab_widget.py:188-195 | an edit marks exactly that tab modified and retitles it; the change is announced exactly when the tab was clean; an unlisted tab changes nothing |
| Tabs.OnTextChangedIdempotent | src/ui/tab_widget.py:188-195 | a second edit notification changes nothing and announces nothing |
| Tabs.CurrentAfterRemove | src/ui/tab_widget.py:219 | after a removal the current index stays on a tab; an earlier current tab keeps its index and a later one shifts down one; when the current tab itself goes, the tab that slides into its place is chosen, or the new last tab |
| Tabs.CloseTab | src/ui/tab_widget.py:207-219 | an unlisted tab is ignored; the last tab is kept and `last_tab_closed` is emitted; otherwise exactly that tab is removed, the others keep their order, the current tab stays current unless removed, and a removed current tab hands over to its right neighbour, or to its left one when it was last |
| Tabs.RemoveAt | src/ui/tab_widget.py:217-219 | the tab at the position goes; the current tab stays current unless it is the one removed, in which case the tab to its right becomes current, or the one to its left when it was the last |
| Tabs.CloseTabRemovesExactly | src/ui/tab_widget.py:207-219 | the remaining tabs are all the others, in order, without reference to positions |
| Tabs.CloseTabKeepsCurrent | src/ui/tab_widget.py:207-219 | closing a tab other than the current one keeps the current tab |
| Tabs.NewTabThenClose | src/ui/tab_widget.py:158-219 | a tab just added can be closed again, which restores the tab list |
| Tabs.CurrentTab | src/ui/tab_widget.py:225-230 | the tab at the current index, or none exactly when the index is off the list |
| Tabs.CurrentDocument | src/ui/tab_widget.py:238-242 | the current tab's document, present exactly when there is a current tab |
| Tabs.CurrentText | src/ui/tab_widget.py:232-236 | the current tab's editor text, present exactly when there is a current tab |
| Tabs.OpenFile | src/ui/tab_widget.py:244-267 | an empty, clean, untitled current tab receives the file in place (a failed read changes nothing and reports failure); otherwise a new tab with a fresh identity is appended and made current, holding the file, or an empty document when the read fails |
| Tabs.SaveCurrent | src/ui/tab_widget.py:269-286 | the text is written to the tab's path exactly when it has one; success exactly when that write succeeds, which alone marks the tab clean and announces it |
| Tabs.MarkCurrentSaved | src/ui/tab_widget.py:288-295 | the current tab takes the path and becomes clean, its title loses the marker, and no other tab changes |
| Tabs.EditAfterSave | src/ui/tab_widget.py:188-195 | an edit after a successful save makes the document modified again and announces it |
| TabBar.Manhattan | src/ui/tab_widget.py:105 | the distance is zero exactly between equal points |
| TabBar.MousePress | src/ui/tab_widget.py:92-95 | only a left press records the start point |
| TabBar.MouseRelease | src/ui/tab_widget.py:127-130 | a release forgets the press and any drag |
| TabBar.MouseMove | src/ui/tab_widget.py:97-125 | a drag starts exactly when a press was recorded, no drag runs, the pointer has moved at least the threshold and the press was on a tab; the start point is forgotten afterwards |
| TabBar.OneDragPerPress | src/ui/tab_widget.py:115-125 | one press starts at most one drag |
| TabBar.ThresholdGuardsDrag | src/ui/tab_widget.py:105-113 | from a recorded press, a drag starts exactly when the distance reaches the threshold and a tab was under the press |
| TextEditor.Digits | src/editor/text_editor.py:52 | the digit count d of n satisfies 10^(d-1) <= n < 10^d |
| TextEditor.DigitsUnique | src/editor/text_editor.py:52 | that bracket determines the digit count |
| TextEditor.Columns | src/editor/text_editor.py:52-53 | at least three columns; exactly three below 1000 lines, and the digit count from 1000 on |
| TextEditor.LineNumberAreaWidth | src/editor/text_editor.py:50-54 | the gutter is at least three digits plus 3 pixels wide, exactly that below 1000 lines, and one digit width per digit of the line count from 1000 on |
| TextEditor.WidthMonotone | src/editor/text_editor.py:50-54 | the gutter never narrows as lines are added |
| TextEditor.WidthGrowsWithDigits | src/editor/text_editor.py:50-54 | from 1000 lines on, one more line widens the gutter by one digit exactly at a power of ten |
| TextEditor.ZeroLinesLikeOne | src/editor/text_editor.py:52 | a block count of zero is measured as one |
| TextEditor.HighlightCurrentLine | src/editor/text_editor.py:78-91 | no highlight in a read-only editor; otherwise one full-width highlight in the line colour at the cursor, with its selection cleared |
| MainWindow.WindowTitle | src/ui/main_window.py:78-87 | the title is the bare application name exactly when there is no document; otherwise it is the prefix, then the document's display name, then the marker exactly when the document is modified |
| MainWindow.WindowTitleInjective | src/ui/main_window.py:78-87 | titles tell documents apart by display name and modified state when no name ends in the marker |
| MainWindow.WindowTitleAmbiguous | src/ui/main_window.py:78-87 | a clean file named "a *" and a modified file "a" get the same title |
| MainWindow.ToggleFileExplorer | src/ui/main_window.py:68-76 | hiding remembers the explorer's width; showing restores that width, or 200 when none was remembered, next to the editor's current width |
| MainWindow.ToggleTwiceRestoresWidth | src/ui/main_window.py:68-76 | hiding and then showing gives the explorer back the width it had |
| MainWindow.CloseEvent | src/ui/main_window.py:89-94 | the window closes exactly when the unsaved-changes check allows it |
| MainWindow.Create | src/ui/main_window.py:15-48 | the new window is valid, shows the explorer and is titled "PyNano - Untitled" |
| MainWindow.Document | src/ui/main_window.py:63-66 | the first pane's current document, always present in a valid window |
| MainWindow.Editor | src/ui/main_window.py:58-61 | the first pane's current editor text, always present in a valid window |
| MainWindow.PrimaryTabs | src/ui/main_window.py:27-30 | the first pane's tab widget, valid in a valid window |
| MainWindow.TitleNeverBare | src/ui/main_window.py:78-87 | a valid window always names a document in its title |
| MainWindow.OnFileSelected | src/ui/main_window.py:54-56 | a file chosen in the explorer opens in a new tab of the first pane, which becomes current; the other panes are unchanged |
| MainWindow.TitleAfterOpen | src/ui/main_window.py:54-87 | after a readable file is opened from the explorer, the title names its base name, marked clean |

## Left out

- Widgets: reparenting, `_splitters` list bookkeeping, the deferred `setSizes` to half sizes, and all painting (`paintEvent`, `line_number_area_paint_event`, margins). They concern screen geometry, not state.
- `dropEvent` and the drag-enter and drag-leave handlers: the MIME decoding is toolkit I/O. The model starts from the split requests they emit, with a zone that is one of the four.
- SplitView.HandleTabSplit: the origin must be one of the manager's own panes. A tab widget from elsewhere, which the code accepts, is not modelled.
- SplitView.HandleTabSplit: the case of a pane's only tab dropped on that same pane follows the corrected behaviour described under Findings, not the code.
- SplitView.BeforeSplit: `self.window()` is taken to exist, so the size is always stored before the first split.
- Tabs: `textChanged` firing from inside `setPlainText` (in `open_file` and `_handle_tab_split`) is not modelled. Its effect on the document is overwritten right after, but it also emits an extra `current_document_changed`. So `open_file` reusing a tab emits that signal twice, where `Tabs.OpenFile` returns it once, and the pane receiving a dragged tab emits it once more.
- Tabs: `_on_current_changed` and the `currentChanged` signal, tab reordering by `setMovable`, and the close button are not modelled.
- Tabs.CurrentAfterRemove: the toolkit's choice of the new current tab after `removeTab` is modelled as its default rule (select the tab to the right).
- Tabs.OpenFile: the read is an arbitrary outcome. An empty path's read is not forced to fail.
- Tabs.DisplayName: `src/editor/document.py` is not part of this model. `display_name` is taken to be "Untitled" without a path and the last path component otherwise.
- MainWindow.Title: the title is computed from the current state. The code refreshes it only on the first pane's original tab widget's signal, so after that pane closes the shown title can lag.
- MainWindow.ToggleFileExplorer: the explorer's visibility is a stored flag. In the code it is `isVisible()`, which also depends on the window being shown.
- MainWindow.CloseEvent: the unsaved-changes check is a parameter; `file_actions.py`, `menu_bar.py`, `file_explorer.py` and `run.py` are not part of this model.
- TextEditor: the font metrics are a digit-width parameter. The syntax highlighter and bracket matching are not in `text_editor.py` and are not modelled.
- SplitView.OwnLastTabSplitAsWritten: it carries no contract of its own. Its claim is stated by `OwnLastTabSplitBreaksFlag`.

## Findings

| source | as written | input that shows it | evidently intended | confidence | as-written member | corrected member |
|---|---|---|---|---|---|---|
| src/ui/split_view.py:306-349 | When the only tab of a pane is dragged onto that same pane, `_close_tab` emits `last_tab_closed` and the pane is closed (one pane left: the view is unsplit and the size restored). The split then goes ahead on the closed pane and sets `_is_split = True`. | A fresh window whose one tab is dragged onto an edge of its own pane | The new pane takes the closed pane's place, and the split flag and remembered size follow the pane count | not executed | SplitView.OwnLastTabSplitBreaksFlag | SplitView.OwnLastTabSplitCorrected |

=== FILE: common.dfy ===
/** Small shared vocabulary: an optional value (the source's `None`) and a few
    facts about sequences without repeated elements, used by the tab list and
    the pane list alike. */
module Common {

  /** A value that may be absent, like a Python attribute holding `None`. */
  datatype Option<+T> = None | Some(value: T) {

    /** The held value, or `default` when there is none. */
    function GetOr(default: T): T {
      match this
      case Some(v) => v
      case None => default
    }
  }

  /** No element occurs twice. */
  ghost predicate Distinct<T>(s: seq<T>) {
    forall i, j :: 0 <= i < j < |s| ==> s[i] != s[j]
  }

  /** `s` with every occurrence of `x` taken out, the others kept in order. */
  function Erase<T(==)>(s: seq<T>, x: T): (r: seq<T>)
    ensures |r| <= |s|
    ensures x !in r
  {
    if |s| == 0 then []
    else if s[0] == x then Erase(s[1..], x)
    else [s[0]] + Erase(s[1..], x)
  }

  lemma {:induction false} EraseAbsent<T>(s: seq<T>, x: T)
    requires x !in s
    ensures Erase(s, x) == s
  {
    if |s| > 0 {
      EraseAbsent(s[1..], x);
    }
  }

  lemma {:induction false} EraseConcat<T>(a: seq<T>, b: seq<T>, x: T)
    ensures Erase(a + b, x) == Erase(a, x) + Erase(b, x)
  {
    if |a| == 0 {
      assert a + b == b;
    } else {
      assert (a + b)[1..] == a[1..] + b;
      EraseConcat(a[1..], b, x);
    }
  }

  /** Erasing an element that occurs exactly once removes exactly one element. */
  lemma {:induction false} EraseOnce<T>(s: seq<T>, i: nat)
    requires i < |s|
    requires Distinct(s)
    ensures Erase(s, s[i]) == s[..i] + s[i + 1..]
  {
    assert s == s[..i] + [s[i]] + s[i + 1..];
    OnlyOnce(s, i);
    EraseSplice(s[..i], s[i], s[i + 1..]);
  }

  lemma {:induction false} EraseSplice<T>(a: seq<T>, x: T, b: seq<T>)
    requires x !in a && x !in b
    ensures Erase(a + [x] + b, x) == a + b
  {
    var s := a + [x] + b;
    if |a| == 0 {
      assert s[0] == x && s[1..] == b;
      EraseAbsent(b, x);
    } else {
      assert s[0] == a[0] && s[1..] == a[1..] + [x] + b;
      EraseSplice(a[1..], x, b);
      assert a + b == [a[0]] + (a[1..] + b);
    }
  }

  /** Where the elements of a sequence with position `i` cut out come from. */
  lemma SliceAt<T>(s: seq<T>, i: nat, k: nat)
    requires i < |s| && k < |s| - 1
    ensures (s[..i] + s[i + 1..])[k] == s[if k < i then k else k + 1]
  {
  }

  /** An element of a sequence without repeats occurs neither before nor
      after its own position. */
  lemma OnlyOnce<T>(s: seq<T>, i: nat)
    requires i < |s| && Distinct(s)
    ensures s[i] !in s[..i] && s[i] !in s[i + 1..]
  {
    var a, b := s[..i], s[i + 1..];
    forall k | 0 <= k < |a|
      ensures a[k] != s[i]
    {
      assert a[k] == s[k];
    }
    forall k | 0 <= k < |b|
      ensures b[k] != s[i]
    {
      assert b[k] == s[i + 1 + k];
    }
  }

  lemma {:induction false} EraseMultiset<T>(s: seq<T>, x: T)
    ensures multiset(Erase(s, x)) == multiset(s)[x := 0]
  {
    if |s| == 0 {
    } else {
      assert s == [s[0]] + s[1..];
      EraseMultiset(s[1..], x);
    }
  }

  lemma {:induction false} EraseDistinct<T>(s: seq<T>, x: T)
    requires Distinct(s)
    ensures Distinct(Erase(s, x))
  {
    if |s| > 0 {
      var r := Erase(s[1..], x);
      EraseDistinct(s[1..], x);
      EraseMultiset(s[1..], x);
      OnlyOnce(s, 0);
      if s[0] != x {
        var u := [s[0]] + r;
        assert Erase(s, x) == u;
        forall a, b | 0 <= a < b < |u|
          ensures u[a] != u[b]
        {
          assert u[b] == r[b - 1] && u[b] in multiset(r);
          if a > 0 {
            assert u[a] == r[a - 1];
          }
        }
      }
    }
  }

  /** Facts about a concatenation without repeats: both parts are without
      repeats and share no element. */
  lemma DistinctSplit<T>(a: seq<T>, b: seq<T>)
    requires Distinct(a + b)
    ensures Distinct(a) && Distinct(b)
    ensures forall i :: 0 <= i < |a| ==> a[i] !in b
  {
    forall i, j | 0 <= i < |a| && 0 <= j < |b|
      ensures a[i] != b[j]
    {
      assert (a + b)[i] == a[i] && (a + b)[|a| + j] == b[j];
    }
    forall i, j | 0 <= i < j < |b|
      ensures b[i] != b[j]
    {
      assert (a + b)[|a| + i] == b[i] && (a + b)[|a| + j] == b[j];
    }
    forall i, j | 0 <= i < j < |a|
      ensures a[i] != a[j]
    {
      assert (a + b)[i] == a[i] && (a + b)[j] == a[j];
    }
  }

  /** `s` with every occurrence of `x` replaced by the sequence `rep`. */
  function Expand<T(==)>(s: seq<T>, x: T, rep: seq<T>): (r: seq<T>)
    ensures x !in s ==> r == s
  {
    if |s| == 0 then []
    else (if s[0] == x then rep else [s[0]]) + Expand(s[1..], x, rep)
  }

  lemma {:induction false} ExpandConcat<T>(a: seq<T>, b: seq<T>, x: T, rep: seq<T>)
    ensures Expand(a + b, x, rep) == Expand(a, x, rep) + Expand(b, x, rep)
  {
    if |a| == 0 {
      assert a + b == b;
    } else {
      assert (a + b)[1..] == a[1..] + b;
      ExpandConcat(a[1..], b, x, rep);
    }
  }

  /** Replacing an element that occurs exactly once splices `rep` in at its
      position and leaves everything around it in place. */
  lemma {:induction false} ExpandOnce<T>(s: seq<T>, i: nat, rep: seq<T>)
    requires i < |s|
    requires Distinct(s)
    ensures Expand(s, s[i], rep) == s[..i] + rep + s[i + 1..]
  {
    var x, a, b := s[i], s[..i], s[i + 1..];
    assert s == a + [x] + b;
    OnlyOnce(s, i);
    ExpandConcat(a + [x], b, x, rep);
    ExpandConcat(a, [x], x, rep);
    assert Expand([x], x, rep) == rep + Expand([], x, rep);
    calc {
      Expand(s, x, rep);
      Expand(a + [x], x, rep) + Expand(b, x, rep);
      Expand(a, x, rep) + Expand([x], x, rep) + Expand(b, x, rep);
      a + rep + b;
    }
  }
}

=== FILE: drop_zone.dfy ===
/** The drop-zone overlay a split pane shows while something is dragged over
    it: which edge the cursor is nearest to, the half of the pane that edge
    highlights, and the overlay's two-field state. Widget sizes are the
    overlay's own width and height, which the toolkit never makes negative, so
    Dafny's `/` on them agrees with Python's floor division `//`. */
module DropZone {
  import opened Common

  /** The four drop zones, named in the source by the strings below. */
  datatype Zone = Top | Bottom | Left | Right

  function ZoneName(z: Zone): string {
    match z
    case Top => "top"
    case Bottom => "bottom"
    case Left => "left"
    case Right => "right"
  }

  /** Reads a zone back from its name; any other string names no zone. */
  function ParseZone(s: string): (r: Option<Zone>)
    ensures r.Some? ==> ZoneName(r.value) == s
    ensures forall z: Zone :: ZoneName(z) == s ==> r == Some(z)
  {
    if s == "top" then Some(Top)
    else if s == "bottom" then Some(Bottom)
    else if s == "left" then Some(Left)
    else if s == "right" then Some(Right)
    else None
  }

  /** Rank of a zone in the tie-break order: top, bottom, left, right. */
  function Rank(z: Zone): nat {
    match z
    case Top => 0
    case Bottom => 1
    case Left => 2
    case Right => 3
  }

  /** Distance from the point (x, y) to the edge of a `w` by `h` widget that
      zone `z` lies against. */
  function EdgeDistance(z: Zone, x: int, y: int, w: nat, h: nat): int {
    match z
    case Top => y
    case Bottom => h - y
    case Left => x
    case Right => w - x
  }

  /** The zone under the cursor: the edge nearest to the point, with ties
      resolved in the order top, bottom, left, right. The two ensures
      together single out exactly one zone (see `ZoneAtUnique`). */
  function GetZoneAt(x: int, y: int, w: nat, h: nat): (r: Zone)
    ensures forall z: Zone :: EdgeDistance(r, x, y, w, h) <= EdgeDistance(z, x, y, w, h)
    ensures forall z: Zone :: Rank(z) < Rank(r) ==> EdgeDistance(z, x, y, w, h) > EdgeDistance(r, x, y, w, h)
  {
    var top, bottom, left, right := y, h - y, x, w - x;
    var m := Min(Min(Min(top, bottom), left), right);
    if m == top then Top
    else if m == bottom then Bottom
    else if m == left then Left
    else Right
  }

  function Min(a: int, b: int): int {
    if a <= b then a else b
  }

  /** Nearest-edge-first-in-order is a complete description: any zone that is
      nearest and beats every earlier-ranked zone strictly is the answer. */
  lemma ZoneAtUnique(x: int, y: int, w: nat, h: nat, z: Zone)
    requires forall z': Zone :: EdgeDistance(z, x, y, w, h) <= EdgeDistance(z', x, y, w, h)
    requires forall z': Zone :: Rank(z') < Rank(z) ==> EdgeDistance(z', x, y, w, h) > EdgeDistance(z, x, y, w, h)
    ensures GetZoneAt(x, y, w, h) == z
  {
    var r := GetZoneAt(x, y, w, h);
    assert EdgeDistance(r, x, y, w, h) == EdgeDistance(z, x, y, w, h);
    assert Rank(r) == Rank(z);
  }

  /** A rectangle given by its top-left corner and its size, like `QRect`. */
  datatype Rect = Rect(x: int, y: int, width: int, height: int)

  /** The empty rectangle `QRect()`. */
  const EmptyRect := Rect(0, 0, 0, 0)

  /** The rectangle zone `z` highlights: the half of the widget along its edge. */
  function ZoneRect(z: Zone, w: nat, h: nat): (r: Rect)
    ensures 0 <= r.x && 0 <= r.y && 0 <= r.width && 0 <= r.height
    ensures r.x + r.width <= w && r.y + r.height <= h
    ensures z in {Top, Bottom} ==> r.x == 0 && r.width == w && 2 * r.height <= h < 2 * r.height + 2
    ensures z in {Left, Right} ==> r.y == 0 && r.height == h && 2 * r.width <= w < 2 * r.width + 2
    ensures z in {Top, Left} ==> r.x == 0 && r.y == 0
  {
    match z
    case Top => Rect(0, 0, w, h / 2)
    case Bottom => Rect(0, h / 2, w, h / 2)
    case Left => Rect(0, 0, w / 2, h)
    case Right => Rect(w / 2, 0, w / 2, h)
  }

  /** The two halves along each axis meet without a gap: bottom starts where
      top ends, right starts where left ends, and the halves never overlap. */
  lemma ZoneRectsTile(w: nat, h: nat)
    ensures ZoneRect(Bottom, w, h).y == ZoneRect(Top, w, h).y + ZoneRect(Top, w, h).height
    ensures ZoneRect(Right, w, h).x == ZoneRect(Left, w, h).x + ZoneRect(Left, w, h).width
    ensures ZoneRect(Top, w, h) == ZoneRect(Bottom, w, h).(y := 0)
    ensures ZoneRect(Left, w, h) == ZoneRect(Right, w, h).(x := 0)
  {
  }

  /** `get_zone_rect`: the zone is passed by name; a name that is none of the
      four zones yields the empty rectangle. */
  function GetZoneRect(name: string, w: nat, h: nat): (r: Rect)
    ensures ParseZone(name).None? ==> r == EmptyRect
    ensures forall z: Zone :: name == ZoneName(z) ==> r == ZoneRect(z, w, h)
  {
    match ParseZone(name)
    case Some(z) => ZoneRect(z, w, h)
    case None => EmptyRect
  }

  /** Whether (px, py) lies in `r` with its edges counted as inside. */
  predicate InClosed(r: Rect, px: int, py: int) {
    r.x <= px <= r.x + r.width && r.y <= py <= r.y + r.height
  }

  /** The zone chosen for a point on the widget is the half of the widget that
      contains the point: hovering picks the half that is then highlighted. */
  lemma PointLiesInItsZone(x: int, y: int, w: nat, h: nat)
    requires 0 <= x < w && 0 <= y < h
    ensures InClosed(ZoneRect(GetZoneAt(x, y, w, h), w, h), x, y)
  {
    var z := GetZoneAt(x, y, w, h);
    assert EdgeDistance(z, x, y, w, h) <= EdgeDistance(Top, x, y, w, h);
    assert EdgeDistance(z, x, y, w, h) <= EdgeDistance(Bottom, x, y, w, h);
    assert EdgeDistance(z, x, y, w, h) <= EdgeDistance(Left, x, y, w, h);
    match z
    case Top =>
    case Bottom =>
      assert EdgeDistance(Top, x, y, w, h) > EdgeDistance(Bottom, x, y, w, h);
    case Left =>
    case Right =>
      assert EdgeDistance(Left, x, y, w, h) > EdgeDistance(Right, x, y, w, h);
  }

  /** The overlay's state: whether it is shown and the zone currently
      highlighted. The active zone is kept as the value that was passed in,
      as the source stores whatever `set_active_zone` receives. */
  datatype Overlay = Overlay(visible: bool, activeZone: Option<string>)

  /** A freshly built overlay: hidden, nothing highlighted. */
  const InitialOverlay := Overlay(false, None)

  /** `show_zones` makes the overlay visible and keeps the highlighted zone.
      Its repaint request is unconditional, so unlike `SetActiveZone` there
      is no repaint decision to return; raising and showing the widget are
      window-system effects outside the model. */
  function ShowZones(o: Overlay): (r: Overlay)
    ensures r.visible
    ensures r.activeZone == o.activeZone
  {
    o.(visible := true)
  }

  /** `hide_zones` hides the overlay and forgets the highlighted zone. */
  function HideZones(o: Overlay): (r: Overlay)
    ensures !r.visible && r.activeZone.None?
    ensures r == InitialOverlay
  {
    Overlay(false, None)
  }

  /** `set_active_zone`: the new zone is recorded, and a repaint is requested
      only when it differs from the one already highlighted. */
  function SetActiveZone(o: Overlay, zone: Option<string>): (r: (Overlay, bool))
    ensures r.0.activeZone == zone && r.0.visible == o.visible
    ensures r.1 <==> o.activeZone != zone
    ensures !r.1 ==> r.0 == o
  {
    if o.activeZone != zone then (o.(activeZone := zone), true) else (o, false)
  }

  /** Setting the same zone twice changes nothing the second time and asks
      for no second repaint. */
  lemma SetActiveZoneIdempotent(o: Overlay, zone: Option<string>)
    ensures SetActiveZone(SetActiveZone(o, zone).0, zone) == (SetActiveZone(o, zone).0, false)
  {
  }

  /** Hiding after any sequence of show and highlight steps returns the
      overlay to its initial state. */
  lemma HideResets(o: Overlay, zone: Option<string>)
    ensures HideZones(SetActiveZone(ShowZones(o), zone).0) == InitialOverlay
  {
  }

  /** The test suite's pinned answers for a 100 by 100 overlay. */
  lemma PinnedZones()
    ensures GetZoneAt(50, 10, 100, 100) == Top
    ensures GetZoneAt(50, 90, 100, 100) == Bottom
    ensures GetZoneAt(10, 50, 100, 100) == Left
    ensures GetZoneAt(90, 50, 100, 100) == Right
    ensures GetZoneRect("top", 100, 100) == Rect(0, 0, 100, 50)
    ensures GetZoneRect("bottom", 100, 100) == Rect(0, 50, 100, 50)
    ensures GetZoneRect("left", 100, 100) == Rect(0, 0, 50, 100)
    ensures GetZoneRect("right", 100, 100) == Rect(50, 0, 50, 100)
    ensures GetZoneRect("unknown", 100, 100) == EmptyRect
  {
  }
}

=== FILE: main_window.dfy ===
/** The main window's own logic: its title, the file explorer toggle, the
    close decision, and the accessors and file-explorer hook it routes to
    the split view. The explorer's widget sizes are parameters and the
    window title is computed from the state. */
module MainWindow {
  import opened Common
  import Tabs
  import SplitView

  const AppName := "PyNano"

  /** What precedes the document's name in the title. */
  const TitlePrefix := "PyNano - "

  /** `update_title`: the application name alone without a document, and
      otherwise the name followed by the document's display name and, for a
      modified document, the modified marker. */
  function WindowTitle(doc: Option<Tabs.Document>): (r: string)
    ensures r == AppName <==> doc.None?
    ensures doc.Some? ==> |r| >= |TitlePrefix| && r[..|TitlePrefix|] == TitlePrefix
    ensures doc.Some? ==>
      var n := Tabs.DisplayName(doc.value);
      && |r| == |TitlePrefix| + |n| + (if doc.value.isModified then |Tabs.ModifiedMark| else 0)
      && r[|TitlePrefix|..|TitlePrefix| + |n|] == n
    ensures doc.Some? && doc.value.isModified ==>
      |r| >= |TitlePrefix| + |Tabs.ModifiedMark| && r[|r| - |Tabs.ModifiedMark|..] == Tabs.ModifiedMark
  {
    match doc
    case None => AppName
    case Some(d) =>
      TitlePrefix + Tabs.DisplayName(d) + (if d.isModified then Tabs.ModifiedMark else "")
  }

  /** Whether a name ends in the modified marker. */
  predicate EndsInMark(s: string) {
    |s| >= |Tabs.ModifiedMark| && s[|s| - |Tabs.ModifiedMark|..] == Tabs.ModifiedMark
  }

  /** The title tells documents apart by display name and modified state, as
      long as no display name itself ends in the modified marker. */
  lemma WindowTitleInjective(a: Tabs.Document, b: Tabs.Document)
    requires !EndsInMark(Tabs.DisplayName(a)) && !EndsInMark(Tabs.DisplayName(b))
    requires WindowTitle(Some(a)) == WindowTitle(Some(b))
    ensures Tabs.DisplayName(a) == Tabs.DisplayName(b) && a.isModified == b.isModified
  {
    var na, nb := Tabs.DisplayName(a), Tabs.DisplayName(b);
    var xa := na + (if a.isModified then Tabs.ModifiedMark else "");
    var xb := nb + (if b.isModified then Tabs.ModifiedMark else "");
    assert WindowTitle(Some(a)) == TitlePrefix + xa;
    assert WindowTitle(Some(b)) == TitlePrefix + xb;
    PrefixCancels(TitlePrefix, xa, xb);
    NameAndMark(na, nb, a.isModified, b.isModified);
  }

  lemma PrefixCancels(p: string, x: string, y: string)
    requires p + x == p + y
    ensures x == y
  {
    assert x == (p + x)[|p|..];
    assert y == (p + y)[|p|..];
  }

  lemma NameAndMark(na: string, nb: string, ma: bool, mb: bool)
    requires !EndsInMark(na) && !EndsInMark(nb)
    requires na + (if ma then Tabs.ModifiedMark else "") == nb + (if mb then Tabs.ModifiedMark else "")
    ensures na == nb && ma == mb
  {
    var m := Tabs.ModifiedMark;
    if ma && mb {
      assert na == (na + m)[..|na|];
      assert nb == (nb + m)[..|nb|];
    } else if !ma && !mb {
      assert na + "" == na && nb + "" == nb;
    }
  }

  /** A file named like a modified document makes the title ambiguous: a
      clean file whose name ends in the marker shows the same title as a
      modified one without it. */
  lemma WindowTitleAmbiguous()
    ensures WindowTitle(Some(Tabs.Document(Some("a *"), false))) ==
            WindowTitle(Some(Tabs.Document(Some("a"), true)))
  {
    var da, db := Tabs.Document(Some("a *"), false), Tabs.Document(Some("a"), true);
    Tabs.BaseNameOfPlainName("a *");
    Tabs.BaseNameOfPlainName("a");
    assert "a *" == "a" + Tabs.ModifiedMark;
    calc {
      WindowTitle(Some(da));
      TitlePrefix + "a *" + "";
      TitlePrefix + "a" + Tabs.ModifiedMark;
      WindowTitle(Some(db));
    }
  }

  /** The file explorer's visibility and the width remembered when it was
      last hidden (`_explorer_width`). */
  datatype Explorer = Explorer(visible: bool, rememberedWidth: Option<int>)

  /** Width the explorer gets when it is shown without a remembered width. */
  const DefaultExplorerWidth := 200

  const InitialExplorer := Explorer(true, None)

  /** `toggle_file_explorer`. `sizes` are the splitter's current sizes
      (explorer, editor). Hiding remembers the explorer's width and asks for
      no resize; showing asks for the remembered width (or the default) next
      to the editor's current size. */
  function ToggleFileExplorer(e: Explorer, sizes: (int, int)): (r: (Explorer, Option<(int, int)>))
    ensures r.0.visible == !e.visible
    ensures e.visible ==> r.0.rememberedWidth == Some(sizes.0) && r.1.None?
    ensures !e.visible ==> r.0.rememberedWidth == e.rememberedWidth && r.1.Some? && r.1.value.1 == sizes.1
    ensures !e.visible && e.rememberedWidth.None? ==> r.1 == Some((DefaultExplorerWidth, sizes.1))
    ensures !e.visible && e.rememberedWidth.Some? ==> r.1 == Some((e.rememberedWidth.value, sizes.1))
  {
    if e.visible then (Explorer(false, Some(sizes.0)), None)
    else (Explorer(true, e.rememberedWidth), Some((e.rememberedWidth.GetOr(DefaultExplorerWidth), sizes.1)))
  }

  /** Hiding and then showing the explorer gives it back the width it had,
      whatever the sizes were while it was hidden. */
  lemma ToggleTwiceRestoresWidth(e: Explorer, before: (int, int), hidden: (int, int))
    requires e.visible
    ensures var (e1, _) := ToggleFileExplorer(e, before);
      var (e2, resize) := ToggleFileExplorer(e1, hidden);
      e2.visible && resize == Some((before.0, hidden.1))
  {
  }

  /** What happens to a close request. */
  datatype CloseDecision = Accept | Ignore

  /** `closeEvent`: the window closes exactly when the unsaved-changes check
      lets it; the check itself (a dialog) is a parameter. */
  function CloseEvent(unsavedChangesResolved: bool): (r: CloseDecision)
    ensures r == Accept <==> unsavedChangesResolved
  {
    if unsavedChangesResolved then Accept else Ignore
  }

  /** The window: its split-view manager and its file explorer. */
  datatype Window = Window(manager: SplitView.Manager, explorer: Explorer)

  ghost predicate Valid(w: Window) {
    SplitView.Valid(w.manager)
  }

  /** The window as constructed: one pane with one empty tab, the explorer
      shown. */
  function Create(): (r: Window)
    ensures Valid(r) && r.explorer.visible && r.explorer.rememberedWidth.None?
    ensures Title(r) == "PyNano - Untitled"
  {
    Window(SplitView.Init(), InitialExplorer)
  }

  /** The title the window shows for its current state. */
  function Title(w: Window): string {
    WindowTitle(Document(w))
  }

  /** `document`: the current document of the primary pane. */
  function Document(w: Window): (r: Option<Tabs.Document>)
    ensures r == SplitView.CurrentDocument(w.manager)
    ensures Valid(w) ==> r.Some?
  {
    SplitView.CurrentDocument(w.manager)
  }

  /** `editor`: the current editor (its text) of the primary pane. */
  function Editor(w: Window): (r: Option<string>)
    ensures r == SplitView.CurrentEditorText(w.manager)
    ensures Valid(w) ==> r.Some?
  {
    SplitView.CurrentEditorText(w.manager)
  }

  /** `tab_widget`: the tab list of the primary pane. */
  function PrimaryTabs(w: Window): (r: Option<Tabs.TabWidget>)
    ensures r == SplitView.PrimaryTabs(w.manager)
    ensures Valid(w) ==> r.Some? && Tabs.Valid(r.value)
  {
    SplitView.PrimaryTabs(w.manager)
  }

  /** A valid window always shows a document in its title. */
  lemma TitleNeverBare(w: Window)
    requires Valid(w)
    ensures Title(w) != AppName
  {
  }

  /** `_on_file_selected`: a file chosen in the explorer opens in a new tab
      of the primary pane, which becomes that pane's current tab. `read` is
      the outcome of reading the file. */
  function OnFileSelected(w: Window, path: string, read: Option<string>): (r: Window)
    requires Valid(w)
    ensures Valid(r) && r.explorer == w.explorer
    ensures |r.manager.panes| == |w.manager.panes|
    ensures forall k :: 1 <= k < |w.manager.panes| ==> r.manager.panes[k] == w.manager.panes[k]
    ensures var old0 := w.manager.panes[0].tabs;
      var new0 := r.manager.panes[0].tabs;
      |new0.tabs| == |old0.tabs| + 1 && new0.tabs[..|old0.tabs|] == old0.tabs
    ensures path != "" && read.Some? ==>
      Document(r) == Some(Tabs.Document(Some(path), false)) && Editor(r) == read
    ensures !(path != "" && read.Some?) ==>
      Document(r) == Some(Tabs.NewDocument) && Editor(r) == Some("")
  {
    var m := w.manager;
    var tabs := Tabs.NewTab(m.panes[0].tabs, path, read).0;
    SplitView.UpdateKeepsShape(m, 0, tabs);
    Window(m.(panes := m.panes[0 := SplitView.Pane(m.panes[0].id, tabs)]), w.explorer)
  }

  /** Opening a readable file from the explorer puts its name in the title,
      marked clean. */
  lemma TitleAfterOpen(w: Window, path: string, content: string)
    requires Valid(w) && path != ""
    ensures Title(OnFileSelected(w, path, Some(content))) == TitlePrefix + Tabs.BaseName(path)
  {
  }
}

=== FILE: pane_layout.dfy ===
/** The nesting of splitters that arranges the editor panes. A split puts a
    new two-child splitter where the split pane stood; closing a pane empties
    one slot of its splitter, and the splitter is then replaced by its one
    remaining child in the slot the splitter occupied. Every splitter the
    manager builds therefore has exactly two children, which is why the
    layout is a binary tree. */
module PaneLayout {
  import opened Common

  /** Identity of a pane (the source compares panes by object identity). */
  type PaneId = nat

  /** Splitter orientation: `Horizontal` places children side by side. */
  datatype Orientation = Horizontal | Vertical

  datatype Layout =
    | Leaf(pane: PaneId)
    | Split(orientation: Orientation, first: Layout, second: Layout)

  /** The panes of the layout in on-screen order (first child first). */
  function Leaves(t: Layout): (r: seq<PaneId>)
    ensures |r| >= 1
  {
    match t
    case Leaf(p) => [p]
    case Split(_, a, b) => Leaves(a) + Leaves(b)
  }

  /** Number of splitters in the layout. */
  function Splitters(t: Layout): nat {
    match t
    case Leaf(_) => 0
    case Split(_, a, b) => 1 + Splitters(a) + Splitters(b)
  }

  /** A binary tree has one leaf more than it has inner nodes, so the pane
      count always determines the splitter count. */
  lemma {:induction false} LeavesAndSplitters(t: Layout)
    ensures |Leaves(t)| == Splitters(t) + 1
  {
    match t
    case Leaf(_) =>
    case Split(_, a, b) =>
      LeavesAndSplitters(a);
      LeavesAndSplitters(b);
  }

  /** `s` occurs somewhere inside `t` (possibly as `t` itself). */
  predicate Subtree(s: Layout, t: Layout) {
    s == t || (t.Split? && (Subtree(s, t.first) || Subtree(s, t.second)))
  }

  /** Splits pane `src`: the leaf for `src` is replaced, in the same slot, by
      a splitter holding `src` and the new pane `added`; `added` comes first
      when `addedFirst` holds. */
  function SplitLeaf(t: Layout, src: PaneId, added: PaneId, o: Orientation, addedFirst: bool): (r: Layout)
    ensures Leaves(r) == Expand(Leaves(t), src, if addedFirst then [added, src] else [src, added])
    ensures src in Leaves(t) ==> Subtree(NewSplitter(src, added, o, addedFirst), r)
    ensures src !in Leaves(t) ==> r == t
  {
    match t
    case Leaf(p) =>
      if p == src then NewSplitter(src, added, o, addedFirst) else t
    case Split(o', a, b) =>
      ExpandConcat(Leaves(a), Leaves(b), src, if addedFirst then [added, src] else [src, added]);
      Split(o', SplitLeaf(a, src, added, o, addedFirst), SplitLeaf(b, src, added, o, addedFirst))
  }

  /** The two-pane splitter a split creates. */
  function NewSplitter(src: PaneId, added: PaneId, o: Orientation, addedFirst: bool): Layout {
    if addedFirst then Split(o, Leaf(added), Leaf(src)) else Split(o, Leaf(src), Leaf(added))
  }

  /** When the split pane occurs once, the split adds exactly one splitter. */
  lemma {:induction false} SplitLeafAddsOneSplitter(t: Layout, src: PaneId, added: PaneId, o: Orientation, addedFirst: bool)
    requires src in Leaves(t)
    requires Distinct(Leaves(t))
    ensures Splitters(SplitLeaf(t, src, added, o, addedFirst)) == Splitters(t) + 1
  {
    var r := SplitLeaf(t, src, added, o, addedFirst);
    var rep := if addedFirst then [added, src] else [src, added];
    var i :| 0 <= i < |Leaves(t)| && Leaves(t)[i] == src;
    ExpandOnce(Leaves(t), i, rep);
    LeavesAndSplitters(t);
    LeavesAndSplitters(r);
  }

  /** Closes pane `p`: its splitter is left with one child, which takes the
      splitter's slot in the enclosing splitter (or becomes the whole layout
      when the splitter was the outermost one). */
  function RemoveLeaf(t: Layout, p: PaneId): (r: Layout)
    requires t.Split?
    requires p in Leaves(t)
    requires Distinct(Leaves(t))
    ensures Leaves(r) == Erase(Leaves(t), p)
    ensures t.first == Leaf(p) ==> r == t.second
    ensures t.second == Leaf(p) ==> r == t.first
    ensures t.first != Leaf(p) && t.second != Leaf(p) ==>
      r.Split? && r.orientation == t.orientation &&
      (p in Leaves(t.first) ==> r.second == t.second) &&
      (p in Leaves(t.second) ==> r.first == t.first)
    decreases t
  {
    var a, b := t.first, t.second;
    DistinctSplit(Leaves(a), Leaves(b));
    EraseConcat(Leaves(a), Leaves(b), p);
    if a == Leaf(p) then
      EraseAbsent(Leaves(b), p);
      b
    else if b == Leaf(p) then
      EraseAbsent(Leaves(a), p);
      a
    else if p in Leaves(a) then
      EraseAbsent(Leaves(b), p);
      Split(t.orientation, RemoveLeaf(a, p), b)
    else
      EraseAbsent(Leaves(a), p);
      Split(t.orientation, a, RemoveLeaf(b, p))
  }

  /** `t` with every occurrence of the subtree `s` replaced by `s'`. */
  function Substitute(t: Layout, s: Layout, s': Layout): Layout {
    if t == s then s'
    else match t
      case Leaf(_) => t
      case Split(o, a, b) => Split(o, Substitute(a, s, s'), Substitute(b, s, s'))
  }

  /** Every pane of a subtree is a pane of the layout. */
  lemma {:induction false} SubtreeLeaves(s: Layout, t: Layout, q: PaneId)
    requires Subtree(s, t) && q in Leaves(s)
    ensures q in Leaves(t)
  {
    if s != t {
      if Subtree(s, t.first) {
        SubtreeLeaves(s, t.first, q);
      } else {
        SubtreeLeaves(s, t.second, q);
      }
    }
  }

  /** Substituting a subtree that does not occur changes nothing. */
  lemma {:induction false} SubstituteAbsent(t: Layout, s: Layout, s': Layout)
    requires !Subtree(s, t)
    ensures Substitute(t, s, s') == t
  {
    match t
    case Leaf(_) =>
    case Split(_, a, b) =>
      SubstituteAbsent(a, s, s');
      SubstituteAbsent(b, s, s');
  }

  /** Closing pane `p`, wherever its splitter sits, puts the sibling subtree
      `x` unchanged in the slot the splitter occupied and leaves the rest of
      the layout as it was. */
  lemma {:induction false} RemoveLeafCollapsesSplitter(t: Layout, p: PaneId, s: Layout, o: Orientation, x: Layout)
    requires s == Split(o, Leaf(p), x) || s == Split(o, x, Leaf(p))
    requires Subtree(s, t)
    requires Distinct(Leaves(t))
    ensures t.Split? && p in Leaves(t) && RemoveLeaf(t, p) == Substitute(t, s, x)
  {
    SubtreeLeaves(s, t, p);
    if t != s {
      var a, b := t.first, t.second;
      DistinctSplit(Leaves(a), Leaves(b));
      if Subtree(s, a) {
        SubtreeLeaves(s, a, p);
        assert p !in Leaves(b);
        if Subtree(s, b) {
          SubtreeLeaves(s, b, p);
        }
        SubstituteAbsent(b, s, x);
        RemoveLeafCollapsesSplitter(a, p, s, o, x);
      } else {
        assert Subtree(s, b);
        SubtreeLeaves(s, b, p);
        assert p !in Leaves(a);
        if Subtree(s, a) {
          SubtreeLeaves(s, a, p);
        }
        SubstituteAbsent(a, s, x);
        RemoveLeafCollapsesSplitter(b, p, s, o, x);
      }
    }
  }

  /** Closing a pane removes exactly one splitter. */
  lemma RemoveLeafDropsOneSplitter(t: Layout, p: PaneId)
    requires t.Split?
    requires p in Leaves(t)
    requires Distinct(Leaves(t))
    ensures Splitters(RemoveLeaf(t, p)) + 1 == Splitters(t)
  {
    var i :| 0 <= i < |Leaves(t)| && Leaves(t)[i] == p;
    EraseOnce(Leaves(t), i);
    LeavesAndSplitters(t);
    LeavesAndSplitters(RemoveLeaf(t, p));
  }

  /** Splitting a pane and then closing the new pane gives back the layout
      that was there before. */
  lemma {:induction false} SplitThenCloseRestores(t: Layout, src: PaneId, added: PaneId, o: Orientation, addedFirst: bool)
    requires src in Leaves(t)
    requires added !in Leaves(t)
    requires Distinct(Leaves(t))
    ensures
      var r := SplitLeaf(t, src, added, o, addedFirst);
      r.Split? && added in Leaves(r) && Distinct(Leaves(r)) && RemoveLeaf(r, added) == t
  {
    var rep := if addedFirst then [added, src] else [src, added];
    var r := SplitLeaf(t, src, added, o, addedFirst);
    var i :| 0 <= i < |Leaves(t)| && Leaves(t)[i] == src;
    ExpandOnce(Leaves(t), i, rep);
    SplicedDistinct(Leaves(t), i, added, addedFirst);
    match t
    case Leaf(_) =>
    case Split(o', a, b) =>
      DistinctSplit(Leaves(a), Leaves(b));
      assert Leaves(r) == Leaves(r.first) + Leaves(r.second);
      if src in Leaves(a) {
        assert src !in Leaves(b);
        SplitThenCloseRestores(a, src, added, o, addedFirst);
        assert added !in Leaves(r.second);
        assert r.first != Leaf(added);
      } else {
        SplitThenCloseRestores(b, src, added, o, addedFirst);
        assert added !in Leaves(r.first);
        assert r.second != Leaf(added);
      }
  }

  /** Splicing a new element next to element `i` keeps a sequence free of
      repeats. */
  lemma SplicedDistinct(s: seq<PaneId>, i: nat, added: PaneId, addedFirst: bool)
    requires i < |s|
    requires added !in s
    requires Distinct(s)
    ensures Distinct(s[..i] + (if addedFirst then [added, s[i]] else [s[i], added]) + s[i + 1..])
  {
    var rep := if addedFirst then [added, s[i]] else [s[i], added];
    var u := s[..i] + rep + s[i + 1..];
    forall j, k | 0 <= j < k < |u|
      ensures u[j] != u[k]
    {
      assert j < i ==> u[j] == s[j];
      assert k > i + 1 ==> u[k] == s[k - 1];
      assert j > i + 1 ==> u[j] == s[j - 1];
    }
  }

  /** `a` and `b` nest their splitters identically, with the same
      orientations, whatever panes sit in their slots. */
  predicate SameShape(a: Layout, b: Layout) {
    match (a, b)
    case (Leaf(_), Leaf(_)) => true
    case (Split(o1, a1, a2), Split(o2, b1, b2)) => o1 == o2 && SameShape(a1, b1) && SameShape(a2, b2)
    case _ => false
  }

  /** Puts pane `q` in the slot of pane `p`, leaving every splitter as it is. */
  function ReplaceLeaf(t: Layout, p: PaneId, q: PaneId): (r: Layout)
    ensures Leaves(r) == Expand(Leaves(t), p, [q])
    ensures SameShape(r, t)
    ensures Splitters(r) == Splitters(t)
  {
    match t
    case Leaf(x) => if x == p then Leaf(q) else t
    case Split(o, a, b) =>
      ExpandConcat(Leaves(a), Leaves(b), p, [q]);
      Split(o, ReplaceLeaf(a, p, q), ReplaceLeaf(b, p, q))
  }

  /** Putting `p` back in the slot `q` took over gives back the layout, as
      long as `q` was not already in it. */
  lemma {:induction false} ReplaceLeafUndo(t: Layout, p: PaneId, q: PaneId)
    requires q !in Leaves(t)
    ensures ReplaceLeaf(ReplaceLeaf(t, p, q), q, p) == t
  {
    match t
    case Leaf(x) =>
    case Split(o, a, b) =>
      ReplaceLeafUndo(a, p, q);
      ReplaceLeafUndo(b, p, q);
  }

  /** A layout with a single pane is that pane alone, with no splitter. */
  lemma SingleLeaf(t: Layout)
    requires |Leaves(t)| == 1
    ensures t == Leaf(Leaves(t)[0])
  {
  }
}

=== FILE: split_view.dfy ===
/** The split-view manager: the list of open panes (in the order they were
    created), the splitter layout that arranges them, whether the view is
    split, and the window size remembered from before the first split. Each
    pane carries its own tab list. The toolkit's widget reparenting and the
    deferred `setSizes` call are not part of the model; the window's size is
    a parameter and a resize of the window is returned as a value. */
module SplitView {
  import opened Common
  import opened PaneLayout
  import opened DropZone
  import Tabs

  datatype Size = Size(width: int, height: int)

  datatype Pane = Pane(id: PaneId, tabs: Tabs.TabWidget)

  datatype Manager = Manager(
    panes: seq<Pane>,
    layout: Layout,
    isSplit: bool,
    originalSize: Option<Size>,
    nextPane: PaneId)

  /** The identities of the panes, in list order. */
  function Ids(ps: seq<Pane>): (r: seq<PaneId>)
    ensures |r| == |ps|
    ensures forall i :: 0 <= i < |ps| ==> r[i] == ps[i].id
  {
    seq(|ps|, i requires 0 <= i < |ps| => ps[i].id)
  }

  /** The bookkeeping of pane identities: the listed panes and the panes of
      the layout are the same panes, each once, and all were numbered below
      `next`. */
  ghost predicate IdsOk(ids: seq<PaneId>, leaves: seq<PaneId>, next: PaneId) {
    && Distinct(ids)
    && Distinct(leaves)
    && multiset(leaves) == multiset(ids)
    && (forall i :: 0 <= i < |ids| ==> ids[i] < next)
  }

  /** Every pane's tab list satisfies the tab widget's invariant. */
  ghost predicate TabsOk(ps: seq<Pane>) {
    forall i :: 0 <= i < |ps| ==> Tabs.Valid(ps[i].tabs)
  }

  /** Everything the manager keeps true apart from the split flag: at least
      one pane, the identity bookkeeping, and every tab list valid. */
  ghost predicate Shape(m: Manager) {
    && |m.panes| >= 1
    && IdsOk(Ids(m.panes), Leaves(m.layout), m.nextPane)
    && TabsOk(m.panes)
  }

  /** The manager's invariant: its shape, and the view counts as split
      exactly when more than one pane is open. */
  ghost predicate Valid(m: Manager) {
    Shape(m) && (m.isSplit <==> |m.panes| > 1)
  }

  /** The next identity is not in use. */
  lemma NextUnused(ids: seq<PaneId>, leaves: seq<PaneId>, next: PaneId)
    requires IdsOk(ids, leaves, next)
    ensures next !in ids && next !in leaves
  {
    forall k | 0 <= k < |leaves|
      ensures leaves[k] != next
    {
      assert leaves[k] in multiset(ids);
    }
  }

  /** A split keeps the bookkeeping: the new identity is listed last and
      spliced into the layout next to the split pane. */
  lemma IdsGrow(ids: seq<PaneId>, leaves: seq<PaneId>, next: PaneId, j: nat, first: bool)
    requires IdsOk(ids, leaves, next) && j < |leaves|
    ensures IdsOk(ids + [next], leaves[..j] + (if first then [next, leaves[j]] else [leaves[j], next]) + leaves[j + 1..], next + 1)
  {
    NextUnused(ids, leaves, next);
    SplicedDistinct(leaves, j, next, first);
    var rep := if first then [next, leaves[j]] else [leaves[j], next];
    var a, b := leaves[..j], leaves[j + 1..];
    assert leaves == a + [leaves[j]] + b;
    calc {
      multiset(a + rep + b);
      multiset(a) + multiset(rep) + multiset(b);
      multiset(a) + multiset{leaves[j]} + multiset(b) + multiset{next};
      multiset(leaves) + multiset{next};
    }
    IdsAdd(ids, leaves, a + rep + b, next);
  }

  /** Closing pane `ids[i]` keeps the bookkeeping. */
  lemma IdsShrink(ids: seq<PaneId>, leaves: seq<PaneId>, next: PaneId, i: nat)
    requires IdsOk(ids, leaves, next) && i < |ids|
    ensures IdsOk(ids[..i] + ids[i + 1..], Erase(leaves, ids[i]), next)
  {
    var p := ids[i];
    EraseOnce(ids, i);
    EraseMultiset(ids, p);
    EraseMultiset(leaves, p);
    EraseDistinct(leaves, p);
    EraseDistinct(ids, p);
  }

  /** Giving pane `ids[i]`'s layout slot to a new pane, which is listed last,
      keeps the bookkeeping. */
  lemma IdsSwap(ids: seq<PaneId>, leaves: seq<PaneId>, next: PaneId, i: nat)
    requires IdsOk(ids, leaves, next) && i < |ids|
    ensures IdsOk(ids[..i] + ids[i + 1..] + [next], Expand(leaves, ids[i], [next]), next + 1)
  {
    var p := ids[i];
    NextUnused(ids, leaves, next);
    assert p in multiset(leaves);
    var j :| 0 <= j < |leaves| && leaves[j] == p;
    SwapLeaves(leaves, j, next);
    IdsShrink(ids, leaves, next, i);
    IdsAdd(ids[..i] + ids[i + 1..], Erase(leaves, p), Expand(leaves, p, [next]), next);
  }

  /** Listing the next identity last, with the layout gaining it, keeps the
      bookkeeping. */
  lemma IdsAdd(ids: seq<PaneId>, leaves: seq<PaneId>, leaves': seq<PaneId>, next: PaneId)
    requires IdsOk(ids, leaves, next)
    requires Distinct(leaves') && multiset(leaves') == multiset(leaves) + multiset{next}
    ensures IdsOk(ids + [next], leaves', next + 1)
  {
    assert next !in ids by {
      forall k | 0 <= k < |ids|
        ensures ids[k] != next
      {
      }
    }
    DistinctAppend(ids, next);
  }

  /** Putting a new element in the slot of `s[j]` is erasing `s[j]` and
      adding the new element, as far as the multiset goes. */
  lemma SwapLeaves(s: seq<PaneId>, j: nat, x: PaneId)
    requires Distinct(s) && x !in s && j < |s|
    ensures multiset(Expand(s, s[j], [x])) == multiset(Erase(s, s[j])) + multiset{x}
    ensures Distinct(Expand(s, s[j], [x]))
  {
    ExpandOnce(s, j, [x]);
    EraseOnce(s, j);
    ReplacedDistinct(s, j, x);
    calc {
      multiset(s[..j] + [x] + s[j + 1..]);
      multiset(s[..j]) + multiset{x} + multiset(s[j + 1..]);
      multiset(s[..j] + s[j + 1..]) + multiset{x};
    }
  }

  lemma DistinctAppend(s: seq<PaneId>, x: PaneId)
    requires Distinct(s) && x !in s
    ensures Distinct(s + [x])
  {
    var u := s + [x];
    forall a, b | 0 <= a < b < |u|
      ensures u[a] != u[b]
    {
      if b == |s| {
        assert u[a] == s[a];
      }
    }
  }

  lemma ReplacedDistinct(s: seq<PaneId>, j: nat, x: PaneId)
    requires Distinct(s) && x !in s && j < |s|
    ensures Distinct(s[..j] + [x] + s[j + 1..])
  {
    var u := s[..j] + [x] + s[j + 1..];
    forall a, b | 0 <= a < b < |u|
      ensures u[a] != u[b]
    {
      assert a != j ==> u[a] == s[a];
      assert b != j ==> u[b] == s[b];
    }
  }

  lemma IdsAppend(ps: seq<Pane>, q: Pane)
    ensures Ids(ps + [q]) == Ids(ps) + [q.id]
  {
  }

  lemma IdsRemove(ps: seq<Pane>, i: nat)
    requires i < |ps|
    ensures Ids(ps[..i] + ps[i + 1..]) == Ids(ps)[..i] + Ids(ps)[i + 1..]
  {
    var u := ps[..i] + ps[i + 1..];
    assert forall k :: 0 <= k < |u| ==> u[k] == ps[if k < i then k else k + 1];
  }

  lemma TabsOkAppend(ps: seq<Pane>, q: Pane)
    requires TabsOk(ps) && Tabs.Valid(q.tabs)
    ensures TabsOk(ps + [q])
  {
  }

  lemma TabsOkRemove(ps: seq<Pane>, i: nat)
    requires TabsOk(ps) && i < |ps|
    ensures TabsOk(ps[..i] + ps[i + 1..])
  {
    var u := ps[..i] + ps[i + 1..];
    assert forall k :: 0 <= k < |u| ==> u[k] == ps[if k < i then k else k + 1];
  }

  /** The panes of the layout are exactly the open panes. */
  lemma LayoutMatchesPanes(m: Manager)
    requires Shape(m)
    ensures forall p :: p in Leaves(m.layout) <==> p in Ids(m.panes)
    ensures |Leaves(m.layout)| == |m.panes|
  {
    forall p
      ensures p in Leaves(m.layout) <==> p in Ids(m.panes)
    {
      assert p in Leaves(m.layout) <==> p in multiset(Leaves(m.layout));
      assert p in Ids(m.panes) <==> p in multiset(Ids(m.panes));
    }
    assert |multiset(Leaves(m.layout))| == |multiset(Ids(m.panes))|;
  }

  /** The manager as constructed: one pane holding one empty tab, not split,
      no remembered size. */
  function Init(): (r: Manager)
    ensures Valid(r) && !r.isSplit && |r.panes| == 1 && r.originalSize.None?
  {
    Manager([Pane(0, Tabs.Initial())], Leaf(0), false, None, 1)
  }

  /** Position of pane `id` in the pane list. */
  function PaneIndex(ps: seq<Pane>, id: PaneId): (r: Option<nat>)
    ensures r.Some? ==> r.value < |ps| && ps[r.value].id == id
    ensures r.None? <==> id !in Ids(ps)
  {
    if |ps| == 0 then None
    else if ps[0].id == id then Some(0)
    else match PaneIndex(ps[1..], id)
      case Some(k) => Some(k + 1)
      case None =>
        assert Ids(ps) == [ps[0].id] + Ids(ps[1..]);
        None
  }

  /** `store_original_size`: a size is recorded only while none is. */
  function StoreOriginalSize(m: Manager, size: Size): (r: Manager)
    ensures m.originalSize.None? ==> r == m.(originalSize := Some(size))
    ensures m.originalSize.Some? ==> r == m
  {
    if m.originalSize.None? then m.(originalSize := Some(size)) else m
  }

  /** Once a size is remembered, further calls keep the first one. */
  lemma StoreOriginalSizeWriteOnce(m: Manager, a: Size, b: Size)
    ensures StoreOriginalSize(StoreOriginalSize(m, a), b).originalSize ==
      (if m.originalSize.Some? then m.originalSize else Some(a))
  {
  }

  /** `_restore_original_size`: the remembered size (if any) is the size the
      window is given back, and is then forgotten. */
  function RestoreOriginalSize(m: Manager): (r: (Manager, Option<Size>))
    ensures r.0 == m.(originalSize := None)
    ensures r.1 == m.originalSize
  {
    (m.(originalSize := None), m.originalSize)
  }

  /** Both split handlers first remember the window size, unless the view
      is already split. */
  function BeforeSplit(m: Manager, windowSize: Size): (r: Manager)
    ensures r.panes == m.panes && r.layout == m.layout && r.isSplit == m.isSplit && r.nextPane == m.nextPane
    ensures m.isSplit ==> r == m
    ensures !m.isSplit ==> r == StoreOriginalSize(m, windowSize)
    ensures Valid(m) ==> Valid(r)
  {
    if m.isSplit then m else StoreOriginalSize(m, windowSize)
  }

  /** Splitter orientation for a split towards `direction`: left and right
      place panes side by side. */
  function OrientationFor(direction: Zone): Orientation {
    if direction in {Left, Right} then Horizontal else Vertical
  }

  /** Whether the new pane goes first (left or top) in its splitter. */
  predicate NewPaneFirst(direction: Zone) {
    direction in {Left, Top}
  }

  /** Adds `added` to the pane list and splits pane `target` towards
      `direction` to make room for it; the view is split afterwards. */
  function Attach(m: Manager, target: PaneId, added: Pane, direction: Zone): (r: Manager)
    requires Shape(m)
    requires target in Ids(m.panes)
    requires added.id == m.nextPane && Tabs.Valid(added.tabs)
    ensures Valid(r) && r.isSplit
    ensures r.panes == m.panes + [added]
    ensures r.originalSize == m.originalSize
    ensures r.layout == SplitLeaf(m.layout, target, added.id, OrientationFor(direction), NewPaneFirst(direction))
  {
    var o, first := OrientationFor(direction), NewPaneFirst(direction);
    var layout := SplitLeaf(m.layout, target, added.id, o, first);
    AttachKeepsShape(m, target, added, o, first);
    Manager(m.panes + [added], layout, true, m.originalSize, m.nextPane + 1)
  }

  lemma AttachKeepsShape(m: Manager, target: PaneId, added: Pane, o: Orientation, first: bool)
    requires Shape(m)
    requires target in Ids(m.panes)
    requires added.id == m.nextPane && Tabs.Valid(added.tabs)
    ensures Shape(Manager(m.panes + [added], SplitLeaf(m.layout, target, added.id, o, first), true, m.originalSize, m.nextPane + 1))
  {
    var leaves := Leaves(m.layout);
    assert target in multiset(Ids(m.panes));
    var j :| 0 <= j < |leaves| && leaves[j] == target;
    ExpandOnce(leaves, j, if first then [added.id, target] else [target, added.id]);
    IdsGrow(Ids(m.panes), leaves, m.nextPane, j, first);
    IdsAppend(m.panes, added);
    TabsOkAppend(m.panes, added);
  }

  /** `_handle_split`: the dropped file (if the drop carried a path) opens in
      a new pane, appended to the pane list, and the pane it was dropped on is
      split to hold both. Before the first split the window size is
      remembered. `read` is the outcome of reading the file. */
  function HandleSplit(m: Manager, source: PaneId, direction: Zone, filePath: string,
                       windowSize: Size, read: Option<string>): (r: Manager)
    requires Valid(m)
    requires source in Ids(m.panes)
    ensures Valid(r) && r.isSplit
    ensures |r.panes| == |m.panes| + 1 && r.panes[..|m.panes|] == m.panes
    ensures r.panes[|m.panes|].id !in Ids(m.panes)
    ensures r.layout == SplitLeaf(m.layout, source, r.panes[|m.panes|].id, OrientationFor(direction), NewPaneFirst(direction))
    ensures r.originalSize == BeforeSplit(m, windowSize).originalSize
    ensures var t := r.panes[|m.panes|].tabs;
      |t.tabs| == 1 &&
      if filePath != "" && read.Some? then
        t.tabs[0].doc == Tabs.Document(Some(filePath), false) && t.tabs[0].text == read.value
      else
        t.tabs[0].doc == Tabs.NewDocument && t.tabs[0].text == ""
  {
    var m1 := BeforeSplit(m, windowSize);
    var tabs := if filePath != "" then Tabs.OpenFile(Tabs.Initial(), filePath, read).widget else Tabs.Initial();
    assert m.nextPane !in Ids(m.panes);
    Attach(m1, source, Pane(m.nextPane, tabs), direction)
  }

  /** Takes the pane at position `i` out of the pane list and out of the
      layout, collapsing its splitter; the split flag and the remembered size
      are left alone. */
  function DropPane(m: Manager, i: nat): (r: Manager)
    requires Shape(m)
    requires i < |m.panes| && |m.panes| >= 2
    ensures Shape(r)
    ensures r.panes == m.panes[..i] + m.panes[i + 1..]
    ensures m.panes[i].id !in Ids(r.panes)
    ensures Leaves(r.layout) == Erase(Leaves(m.layout), m.panes[i].id)
    ensures m.layout.Split? && m.panes[i].id in Leaves(m.layout) &&
      r.layout == RemoveLeaf(m.layout, m.panes[i].id)
    ensures r.isSplit == m.isSplit && r.originalSize == m.originalSize && r.nextPane == m.nextPane
  {
    DropPaneKeepsShape(m, i);
    m.(panes := m.panes[..i] + m.panes[i + 1..], layout := RemoveLeaf(m.layout, m.panes[i].id))
  }

  lemma DropPaneKeepsShape(m: Manager, i: nat)
    requires Shape(m) && |m.panes| >= 2 && i < |m.panes|
    ensures m.layout.Split? && m.panes[i].id in Leaves(m.layout)
    ensures var ps := m.panes[..i] + m.panes[i + 1..];
      Shape(m.(panes := ps, layout := RemoveLeaf(m.layout, m.panes[i].id))) &&
      m.panes[i].id !in Ids(ps)
  {
    LayoutMatchesPanes(m);
    var p := m.panes[i].id;
    assert Ids(m.panes)[i] == p;
    IdsShrink(Ids(m.panes), Leaves(m.layout), m.nextPane, i);
    IdsRemove(m.panes, i);
    TabsOkRemove(m.panes, i);
    EraseOnce(Ids(m.panes), i);
  }

  /** `close_pane`: a pane that is not open, or the last open pane, is not
      closed (`false`). Otherwise the pane leaves the list and the layout
      (`true`); when one pane is left, the view is no longer split and the
      remembered size is handed back to the window and forgotten. The third
      component is the size the window is resized to, if any. */
  function ClosePane(m: Manager, p: PaneId): (r: (Manager, bool, Option<Size>))
    requires Valid(m)
    ensures Valid(r.0)
    ensures r.1 <==> p in Ids(m.panes) && |m.panes| > 1
    ensures !r.1 ==> r == (m, false, None)
    ensures r.1 ==>
      var k := PaneIndex(m.panes, p).value;
      && r.0.panes == m.panes[..k] + m.panes[k + 1..]
      && p !in Ids(r.0.panes)
      && Leaves(r.0.layout) == Erase(Leaves(m.layout), p)
    ensures r.1 ==> m.layout.Split? && p in Leaves(m.layout) && r.0.layout == RemoveLeaf(m.layout, p)
    ensures r.1 && |r.0.panes| == 1 ==> r.0.originalSize.None? && r.2 == m.originalSize
    ensures r.1 && |r.0.panes| > 1 ==> r.0.originalSize == m.originalSize && r.2.None?
  {
    if p !in Ids(m.panes) || |m.panes| <= 1 then (m, false, None)
    else
      var m1 := DropPane(m, PaneIndex(m.panes, p).value);
      if |m1.panes| == 1 then
        var (m2, size) := RestoreOriginalSize(m1.(isSplit := false));
        (m2, true, size)
      else
        (m1, true, None)
  }

  /** Closing a pane keeps every other pane open, with its tabs. */
  lemma ClosePaneKeepsOthers(m: Manager, p: PaneId, q: Pane)
    requires Valid(m) && q in m.panes && q.id != p
    ensures q in ClosePane(m, p).0.panes
  {
    var r := ClosePane(m, p);
    if r.1 {
      var k := PaneIndex(m.panes, p).value;
      var j :| 0 <= j < |m.panes| && m.panes[j] == q;
      assert j != k by {
        assert Ids(m.panes)[j] == q.id && Ids(m.panes)[k] == p;
      }
      SliceAt(m.panes, k, if j < k then j else j - 1);
    }
  }

  /** Closing the most recently opened pane removes the last entry of the
      pane list and keeps all others in order. */
  lemma CloseLastPane(m: Manager)
    requires Valid(m) && |m.panes| > 1
    ensures ClosePane(m, m.panes[|m.panes| - 1].id).0.panes == m.panes[..|m.panes| - 1]
  {
    var p := m.panes[|m.panes| - 1].id;
    assert Ids(m.panes)[|m.panes| - 1] == p;
    var k := PaneIndex(m.panes, p).value;
    assert Ids(m.panes)[k] == p;
  }

  lemma PrefixShrinks(s: seq<Pane>, t: seq<Pane>)
    requires 1 <= |t| <= |s| && t == s[..|t|]
    ensures t[..|t| - 1] == s[..|t| - 1]
  {
  }

  /** `close_all_splits`: closes the last pane until one is left, which is
      the pane that was first in the list; the window gets its remembered
      size back if any pane was closed. */
  method CloseAllSplits(m: Manager) returns (r: Manager, resized: Option<Size>)
    requires Valid(m)
    ensures Valid(r) && |r.panes| == 1 && !r.isSplit
    ensures r.panes[0] == m.panes[0] && r.layout == Leaf(m.panes[0].id)
    ensures |m.panes| > 1 ==> r.originalSize.None? && resized == m.originalSize
    ensures |m.panes| == 1 ==> r == m && resized.None?
  {
    r, resized := m, None;
    while |r.panes| > 1
      invariant Valid(r)
      invariant 1 <= |r.panes| <= |m.panes| && r.panes == m.panes[..|r.panes|]
      invariant |r.panes| > 1 ==> r.originalSize == m.originalSize && resized.None?
      invariant |r.panes| == 1 && |m.panes| > 1 ==> r.originalSize.None? && resized == m.originalSize
      invariant |m.panes| == 1 ==> r == m && resized.None?
      decreases |r.panes|
    {
      CloseLastPane(r);
      var step := ClosePane(r, r.panes[|r.panes| - 1].id);
      PrefixShrinks(m.panes, r.panes);
      r, resized := step.0, step.2;
    }
    LayoutMatchesPanes(r);
    SingleLeaf(r.layout);
    assert Leaves(r.layout)[0] in multiset(Ids(r.panes));
  }

  /** `split_count`: the number of open panes, which is the number of panes
      in the layout and one more than the number of splitters. */
  function SplitCount(m: Manager): (n: nat)
    requires Valid(m)
    ensures n >= 1
    ensures n == |Leaves(m.layout)| && n == Splitters(m.layout) + 1
    ensures n > 1 <==> m.isSplit
  {
    LayoutMatchesPanes(m);
    LeavesAndSplitters(m.layout);
    |m.panes|
  }

  /** The tab list that stands for the whole manager (`tab_widget`): the one
      of the first pane, or none without panes. */
  function PrimaryTabs(m: Manager): (r: Option<Tabs.TabWidget>)
    ensures r.None? <==> |m.panes| == 0
    ensures r.Some? ==> r.value == m.panes[0].tabs
  {
    if |m.panes| > 0 then Some(m.panes[0].tabs) else None
  }

  /** `current_document`: the current document of the first pane. */
  function CurrentDocument(m: Manager): (r: Option<Tabs.Document>)
    ensures |m.panes| == 0 ==> r.None?
    ensures |m.panes| > 0 ==> r == Tabs.CurrentDocument(m.panes[0].tabs)
    ensures Valid(m) ==> r.Some?
  {
    match PrimaryTabs(m)
    case Some(w) => Tabs.CurrentDocument(w)
    case None => None
  }

  /** `current_editor`: the current editor text of the first pane. */
  function CurrentEditorText(m: Manager): (r: Option<string>)
    ensures |m.panes| == 0 ==> r.None?
    ensures |m.panes| > 0 ==> r == Tabs.CurrentText(m.panes[0].tabs)
    ensures Valid(m) ==> r.Some?
  {
    match PrimaryTabs(m)
    case Some(w) => Tabs.CurrentText(w)
    case None => None
  }

  /** The tab list of a new pane that receives a dragged tab: its one tab
      takes over the dragged tab's text, path and modified flag, and is
      retitled. */
  function ReceiveTab(t: Tabs.Tab): (r: Tabs.TabWidget)
    ensures Tabs.Valid(r) && |r.tabs| == 1 && r.current == 0
    ensures r.tabs[0].text == t.text && r.tabs[0].doc == t.doc
  {
    Tabs.Rewrite(Tabs.Initial(), 0, t.doc, t.text)
  }

  /** `_handle_tab_split` for a tab dragged out of pane `origin` and dropped
      on an edge of pane `target`. An index off the origin's tab list does
      nothing beyond remembering the window size. Otherwise a new pane
      receives the tab and is split into `target`; the tab leaves `origin`,
      and when it was `origin`'s only tab, `origin` closes. When `origin` and
      `target` are the same pane and the tab was its only one, the new pane
      takes the closed pane's place (see `OwnLastTabSplitAsWritten` for what
      the source does there). The second component is a window resize. */
  function HandleTabSplit(m: Manager, target: PaneId, direction: Zone, origin: PaneId,
                          tabIndex: int, windowSize: Size): (r: (Manager, Option<Size>))
    requires Valid(m)
    requires target in Ids(m.panes) && origin in Ids(m.panes)
    ensures Valid(r.0)
    ensures var ow := m.panes[PaneIndex(m.panes, origin).value].tabs;
      !(0 <= tabIndex < |ow.tabs|) ==>
        r.0 == BeforeSplit(m, windowSize) && r.1.None?
    ensures var ow := m.panes[PaneIndex(m.panes, origin).value].tabs;
      0 <= tabIndex < |ow.tabs| ==>
        && r.0.panes[|r.0.panes| - 1] == Pane(m.nextPane, ReceiveTab(ow.tabs[tabIndex]))
        && (|ow.tabs| > 1 || origin != target ==> r.0.isSplit && r.1.None?)
        && (|ow.tabs| > 1 ==> |r.0.panes| == |m.panes| + 1)
        && (|ow.tabs| == 1 ==> |r.0.panes| == |m.panes| && origin !in Ids(r.0.panes))
    ensures var ow := m.panes[PaneIndex(m.panes, origin).value].tabs;
      0 <= tabIndex < |ow.tabs| && (|ow.tabs| > 1 || origin != target || |m.panes| > 1) ==>
        r.0.originalSize == BeforeSplit(m, windowSize).originalSize
  {
    var m1 := BeforeSplit(m, windowSize);
    var oi := PaneIndex(m.panes, origin).value;
    var ow := m.panes[oi].tabs;
    assert Tabs.Valid(ow) && m1.panes == m.panes && m1.layout == m.layout && m1.nextPane == m.nextPane;
    if !(0 <= tabIndex < |ow.tabs|) then (m1, None)
    else if |ow.tabs| > 1 then (SplitOffTab(m1, oi, tabIndex, target, direction), None)
    else if origin != target then (MoveLastTab(m1, oi, target, direction), None)
    else TakeOverPane(m1, oi)
  }

  /** A tab dragged out of a pane that has other tabs: the origin keeps
      those others, every other pane is unchanged, and the new pane is split
      into `target`. */
  lemma TabSplitKeepsOrigin(m: Manager, target: PaneId, direction: Zone, origin: PaneId,
                            tabIndex: int, windowSize: Size)
    requires Valid(m)
    requires target in Ids(m.panes) && origin in Ids(m.panes)
    requires var ow := m.panes[PaneIndex(m.panes, origin).value].tabs;
      0 <= tabIndex < |ow.tabs| && |ow.tabs| > 1
    ensures var oi := PaneIndex(m.panes, origin).value;
      var ow := m.panes[oi].tabs;
      var r := HandleTabSplit(m, target, direction, origin, tabIndex, windowSize).0;
      && r.panes[oi] == Pane(origin, Tabs.CloseTab(ow, ow.tabs[tabIndex].id).0)
      && (forall k :: 0 <= k < |m.panes| && k != oi ==> r.panes[k] == m.panes[k])
      && r.layout == SplitLeaf(m.layout, target, m.nextPane, OrientationFor(direction), NewPaneFirst(direction))
  {
  }

  /** The only tab of pane `origin` dragged onto another pane: `origin`
      leaves the list and the layout (its splitter collapses), and the new
      pane is split into `target`. */
  lemma TabSplitMovesLastTab(m: Manager, target: PaneId, direction: Zone, origin: PaneId,
                             tabIndex: int, windowSize: Size)
    requires Valid(m)
    requires target in Ids(m.panes) && origin in Ids(m.panes) && origin != target
    requires var ow := m.panes[PaneIndex(m.panes, origin).value].tabs;
      0 <= tabIndex < |ow.tabs| && |ow.tabs| == 1
    ensures var oi := PaneIndex(m.panes, origin).value;
      var ow := m.panes[oi].tabs;
      var r := HandleTabSplit(m, target, direction, origin, tabIndex, windowSize).0;
      && r.panes == m.panes[..oi] + m.panes[oi + 1..] + [Pane(m.nextPane, ReceiveTab(ow.tabs[0]))]
      && m.layout.Split? && origin in Leaves(m.layout)
      && r.layout == SplitLeaf(RemoveLeaf(m.layout, origin), target, m.nextPane,
                               OrientationFor(direction), NewPaneFirst(direction))
  {
  }

  /** The only tab of pane `origin` dropped on `origin` itself (corrected
      behaviour): the new pane takes `origin`'s slot, and the split flag and
      the window size follow the pane count. */
  lemma TabSplitOntoItself(m: Manager, direction: Zone, origin: PaneId, tabIndex: int, windowSize: Size)
    requires Valid(m)
    requires origin in Ids(m.panes)
    requires var ow := m.panes[PaneIndex(m.panes, origin).value].tabs;
      0 <= tabIndex < |ow.tabs| && |ow.tabs| == 1
    ensures var (r, resized) := HandleTabSplit(m, origin, direction, origin, tabIndex, windowSize);
      && r.layout == ReplaceLeaf(m.layout, origin, m.nextPane)
      && (|m.panes| == 1 ==> !r.isSplit && r.originalSize.None? && resized == BeforeSplit(m, windowSize).originalSize)
      && (|m.panes| > 1 ==> r.isSplit && resized.None? && r.originalSize == BeforeSplit(m, windowSize).originalSize)
  {
  }

  /** The dragged tab leaves a pane that keeps at least one tab; a new pane
      holding it is split into `target`. */
  function SplitOffTab(m: Manager, oi: nat, tabIndex: nat, target: PaneId, direction: Zone): (r: Manager)
    requires Shape(m) && oi < |m.panes| && target in Ids(m.panes)
    requires tabIndex < |m.panes[oi].tabs.tabs| && |m.panes[oi].tabs.tabs| > 1
    ensures Valid(r) && r.isSplit && r.originalSize == m.originalSize
    ensures var ow := m.panes[oi].tabs;
      && |r.panes| == |m.panes| + 1
      && r.panes[|r.panes| - 1] == Pane(m.nextPane, ReceiveTab(ow.tabs[tabIndex]))
      && r.panes[oi] == Pane(m.panes[oi].id, Tabs.CloseTab(ow, ow.tabs[tabIndex].id).0)
      && (forall k :: 0 <= k < |m.panes| && k != oi ==> r.panes[k] == m.panes[k])
    ensures r.layout == SplitLeaf(m.layout, target, m.nextPane, OrientationFor(direction), NewPaneFirst(direction))
  {
    var ow := m.panes[oi].tabs;
    var tab := ow.tabs[tabIndex];
    var left := Tabs.CloseTab(ow, tab.id).0;
    UpdateKeepsShape(m, oi, left);
    var m2 := m.(panes := m.panes[oi := Pane(m.panes[oi].id, left)]);
    Attach(m2, target, Pane(m.nextPane, ReceiveTab(tab)), direction)
  }

  /** The only tab of pane `m.panes[oi]` is dragged onto another pane: the
      origin pane closes and a new pane holding the tab is split into
      `target`. Two panes remain at least, so the flag and the remembered
      size stay as they are. */
  function MoveLastTab(m: Manager, oi: nat, target: PaneId, direction: Zone): (r: Manager)
    requires Shape(m) && oi < |m.panes| && target in Ids(m.panes) && m.panes[oi].id != target
    requires |m.panes[oi].tabs.tabs| == 1
    ensures Valid(r) && r.isSplit && r.originalSize == m.originalSize
    ensures |r.panes| == |m.panes| && m.panes[oi].id !in Ids(r.panes)
    ensures r.panes == m.panes[..oi] + m.panes[oi + 1..] + [Pane(m.nextPane, ReceiveTab(m.panes[oi].tabs.tabs[0]))]
    ensures r.panes[|r.panes| - 1] == Pane(m.nextPane, ReceiveTab(m.panes[oi].tabs.tabs[0]))
    ensures m.layout.Split? && m.panes[oi].id in Leaves(m.layout) &&
      r.layout == SplitLeaf(RemoveLeaf(m.layout, m.panes[oi].id), target, m.nextPane,
                            OrientationFor(direction), NewPaneFirst(direction))
  {
    var added := Pane(m.nextPane, ReceiveTab(m.panes[oi].tabs.tabs[0]));
    var m2 := DropPane(m, oi);
    OtherSurvives(m.panes, oi, target);
    var r := Attach(m2, target, added, direction);
    IdsAppend(m2.panes, added);
    assert m.panes[oi].id != m.nextPane;
    r
  }

  /** Removing one pane from the list keeps every other identity listed. */
  lemma OtherSurvives(ps: seq<Pane>, i: nat, x: PaneId)
    requires i < |ps| && x in Ids(ps) && x != ps[i].id
    ensures x in Ids(ps[..i] + ps[i + 1..])
  {
    var j :| 0 <= j < |ps| && Ids(ps)[j] == x;
    IdsRemove(ps, i);
    var ids := Ids(ps);
    assert (ids[..i] + ids[i + 1..])[if j < i then j else j - 1] == x;
  }

  /** Corrected behaviour for the only tab of a pane dropped on that same
      pane: the new pane takes the closed pane's place, and the flag and the
      remembered size follow the pane count as `close_pane` leaves them. */
  function TakeOverPane(m: Manager, oi: nat): (r: (Manager, Option<Size>))
    requires Valid(m) && oi < |m.panes| && |m.panes[oi].tabs.tabs| == 1
    ensures Valid(r.0) && |r.0.panes| == |m.panes| && m.panes[oi].id !in Ids(r.0.panes)
    ensures r.0.panes[|r.0.panes| - 1] == Pane(m.nextPane, ReceiveTab(m.panes[oi].tabs.tabs[0]))
    ensures Leaves(r.0.layout) == Expand(Leaves(m.layout), m.panes[oi].id, [m.nextPane])
    ensures r.0.layout == ReplaceLeaf(m.layout, m.panes[oi].id, m.nextPane)
    ensures |m.panes| == 1 ==> r.0.originalSize.None? && r.1 == m.originalSize
    ensures |m.panes| > 1 ==> r.0.originalSize == m.originalSize && r.1.None?
  {
    assert Ids(m.panes)[oi] == m.panes[oi].id;
    var m2 := TakePlace(m, m.panes[oi].id, Pane(m.nextPane, ReceiveTab(m.panes[oi].tabs.tabs[0])));
    if |m2.panes| == 1 then RestoreOriginalSize(m2.(isSplit := false))
    else (m2.(isSplit := true), None)
  }

  lemma UpdateKeepsShape(m: Manager, i: nat, w: Tabs.TabWidget)
    requires Shape(m) && i < |m.panes| && Tabs.Valid(w)
    ensures var m' := m.(panes := m.panes[i := Pane(m.panes[i].id, w)]);
      Shape(m') && Ids(m'.panes) == Ids(m.panes) && (m'.isSplit <==> m.isSplit)
  {
    var m' := m.(panes := m.panes[i := Pane(m.panes[i].id, w)]);
    assert Ids(m'.panes) == Ids(m.panes);
  }

  /** Pane `added` replaces pane `p` both in the layout (same slot) and in
      the pane list (moved to the end, as the new pane is appended and the
      old one removed). */
  function TakePlace(m: Manager, p: PaneId, added: Pane): (r: Manager)
    requires Shape(m)
    requires p in Ids(m.panes)
    requires added.id == m.nextPane && Tabs.Valid(added.tabs)
    ensures Shape(r) && |r.panes| == |m.panes|
    ensures p !in Ids(r.panes) && r.panes[|r.panes| - 1] == added
    ensures Leaves(r.layout) == Expand(Leaves(m.layout), p, [added.id])
    ensures r.layout == ReplaceLeaf(m.layout, p, added.id) && SameShape(r.layout, m.layout)
    ensures r.originalSize == m.originalSize
  {
    var i := PaneIndex(m.panes, p).value;
    var ps := m.panes[..i] + m.panes[i + 1..] + [added];
    assert m.panes[i].id == p;
    TakePlaceKeepsShape(m, i, added);
    Manager(ps, ReplaceLeaf(m.layout, p, added.id), m.isSplit, m.originalSize, m.nextPane + 1)
  }

  lemma TakePlaceKeepsShape(m: Manager, i: nat, added: Pane)
    requires Shape(m) && i < |m.panes|
    requires added.id == m.nextPane && Tabs.Valid(added.tabs)
    ensures var p := m.panes[i].id;
      var ps := m.panes[..i] + m.panes[i + 1..] + [added];
      Shape(Manager(ps, ReplaceLeaf(m.layout, p, added.id), m.isSplit, m.originalSize, m.nextPane + 1)) &&
      p !in Ids(ps)
  {
    var p := m.panes[i].id;
    var rest := m.panes[..i] + m.panes[i + 1..];
    assert Ids(m.panes)[i] == p;
    IdsSwap(Ids(m.panes), Leaves(m.layout), m.nextPane, i);
    IdsRemove(m.panes, i);
    IdsAppend(rest, added);
    TabsOkRemove(m.panes, i);
    TabsOkAppend(rest, added);
    EraseOnce(Ids(m.panes), i);
    NextUnused(Ids(m.panes), Leaves(m.layout), m.nextPane);
  }

  /** The bookkeeping part of the manager: open panes, split flag and
      remembered size. */
  datatype Bookkeeping = Bookkeeping(paneIds: seq<PaneId>, isSplit: bool, originalSize: Option<Size>)

  /** `_handle_tab_split` as written, for the only tab of pane `p` dropped on
      an edge of `p` itself. The new pane is appended; closing the tab closes
      `p` through `last_tab_closed`, and when that leaves one pane the view is
      marked unsplit and the size handed back; the split then goes ahead on
      the closed pane and marks the view split regardless. */
  function OwnLastTabSplitAsWritten(m: Manager, p: PaneId, windowSize: Size): (r: Bookkeeping)
    requires Valid(m) && p in Ids(m.panes)
  {
    var m1 := BeforeSplit(m, windowSize);
    var ids := Erase(Ids(m1.panes) + [m1.nextPane], p);
    var size := if |ids| == 1 then None else m1.originalSize;
    Bookkeeping(ids, true, size)
  }

  /** The as-written behaviour breaks the split flag: from a fresh window,
      dragging the only tab onto its own pane leaves one pane that is marked
      split, and the remembered size is gone, so later splits never record
      one again until the flag is cleared. */
  lemma OwnLastTabSplitBreaksFlag(windowSize: Size)
    ensures var r := OwnLastTabSplitAsWritten(Init(), 0, windowSize);
      |r.paneIds| == 1 && r.isSplit && r.originalSize.None?
  {
    var m := Init();
    assert Ids(m.panes) == [0];
    assert Ids(m.panes) + [m.nextPane] == [0, 1];
    assert Erase([0, 1], 0) == [1];
  }

  /** The corrected operation on the same input keeps the flag in step with
      the pane count: one pane, not split, holding the dragged tab. */
  lemma OwnLastTabSplitCorrected(direction: Zone, windowSize: Size)
    ensures var (r, resized) := HandleTabSplit(Init(), 0, direction, 0, 0, windowSize);
      |r.panes| == 1 && !r.isSplit && r.panes[0].id == 1 && resized == Some(windowSize)
  {
    var m := Init();
    assert Ids(m.panes) == [0];
  }
}

=== FILE: tab_bar.dfy ===
/** The tab bar's drag-start guard: a left-button press records where the
    press happened, and a later mouse move starts dragging that tab out only
    once the pointer has travelled far enough (Manhattan distance) and the
    press was on a tab. The drag itself blocks inside the toolkit; when it
    returns, the press is forgotten. */
module TabBar {
  import opened Common

  datatype Point = Point(x: int, y: int)

  /** `QPoint.manhattanLength` of the difference of two points. */
  function Manhattan(a: Point, b: Point): (r: nat)
    ensures r == 0 <==> a == b
  {
    Abs(a.x - b.x) + Abs(a.y - b.y)
  }

  function Abs(n: int): nat {
    if n < 0 then -n else n
  }

  /** `_drag_start_pos` and `_dragging`. */
  datatype Tracker = Tracker(start: Option<Point>, dragging: bool)

  const Idle := Tracker(None, false)

  /** What a mouse move does: hand the event to the default tab-bar handling,
      swallow it (a drag is already running), or drag out the tab at the
      given index. */
  datatype MoveOutcome = PassThrough | Swallowed | DragStarted(tabIndex: nat)

  /** `mousePressEvent`: only the left button records a start point. */
  function MousePress(t: Tracker, leftButton: bool, pos: Point): (r: Tracker)
    ensures leftButton ==> r.start == Some(pos)
    ensures !leftButton ==> r == t
    ensures r.dragging == t.dragging
  {
    if leftButton then t.(start := Some(pos)) else t
  }

  /** `mouseReleaseEvent`: forgets the press. */
  function MouseRelease(t: Tracker): (r: Tracker)
    ensures r == Idle
  {
    Tracker(None, false)
  }

  /** `mouseMoveEvent`. `startDragDistance` is the toolkit's threshold and
      `tabAtStart` is the index of the tab under the recorded press point
      (negative when there is none). */
  function MouseMove(t: Tracker, pos: Point, startDragDistance: int, tabAtStart: int): (r: (Tracker, MoveOutcome))
    ensures r.1.DragStarted? <==>
      t.start.Some? && !t.dragging && Manhattan(pos, t.start.value) >= startDragDistance && tabAtStart >= 0
    ensures r.1.DragStarted? ==> r.1.tabIndex == tabAtStart && r.0 == Idle
    ensures r.1 == Swallowed <==> t.start.Some? && t.dragging
    ensures !r.1.DragStarted? ==> r.0 == t
  {
    match t.start
    case None => (t, PassThrough)
    case Some(p) =>
      if t.dragging then (t, Swallowed)
      else if Manhattan(pos, p) < startDragDistance then (t, PassThrough)
      else if tabAtStart < 0 then (t, PassThrough)
      else (Idle, DragStarted(tabAtStart))
  }

  /** One press starts at most one drag: once a drag has started, further
      moves pass through until the button is pressed again. */
  lemma OneDragPerPress(t: Tracker, p1: Point, p2: Point, d: int, i1: int, i2: int)
    requires MouseMove(t, p1, d, i1).1.DragStarted?
    ensures MouseMove(MouseMove(t, p1, d, i1).0, p2, d, i2).1 == PassThrough
  {
  }

  /** Moving the pointer without having travelled the threshold never starts
      a drag; a threshold of zero or less lets any move start one from a tab. */
  lemma ThresholdGuardsDrag(pos: Point, start: Point, d: int, tab: int)
    ensures MouseMove(Tracker(Some(start), false), pos, d, tab).1.DragStarted? <==>
      (Manhattan(pos, start) >= d && tab >= 0)
  {
  }
}

=== FILE: tabs.dfy ===
/** The tab list of one editor pane: a sequence of tab records (document
    state, editor text and the title shown on the tab) and the index of the
    current tab. Reading and writing files is replaced by oracle parameters:
    a read is `Some(content)` when it succeeds and `None` when it raises, a
    write is `true` when it succeeds. Signals the widget emits explicitly are
    returned as a list. */
module Tabs {
  import opened Common

  /** Identity of a tab (the source compares tab objects by identity). */
  type TabId = nat

  /** The state of a document the editor tracks: where it is saved, if
      anywhere, and whether it has unsaved changes. */
  datatype Document = Document(filePath: Option<string>, isModified: bool)

  /** A document that has never been saved or edited. */
  const NewDocument := Document(None, false)

  /** Name shown for a document: "Untitled" before it has a path, the last
      component of its path afterwards. */
  function DisplayName(d: Document): string {
    match d.filePath
    case None => "Untitled"
    case Some(p) => BaseName(p)
  }

  /** The part of `path` after its last '/'. */
  function BaseName(path: string): (r: string)
    ensures '/' !in r
    ensures |r| <= |path|
  {
    if |path| == 0 || path[|path| - 1] == '/' then ""
    else BaseName(path[..|path| - 1]) + [path[|path| - 1]]
  }

  /** The base name is the end of the path, and what comes before it is
      either nothing or ends in '/': it starts right after the last '/'. */
  lemma {:induction false} BaseNameIsLastPart(path: string)
    ensures var r := BaseName(path);
      && r == path[|path| - |r|..]
      && (|r| == |path| || path[|path| - |r| - 1] == '/')
  {
    if |path| > 0 && path[|path| - 1] != '/' {
      var q := path[..|path| - 1];
      BaseNameIsLastPart(q);
      var r := BaseName(q);
      assert q[|q| - |r|..] + [path[|path| - 1]] == path[|path| - |r| - 1..];
      assert |r| < |q| ==> q[|q| - |r| - 1] == path[|path| - |r| - 2];
    }
  }

  /** A path without a directory part is its own base name. */
  lemma {:induction false} BaseNameOfPlainName(p: string)
    requires '/' !in p
    ensures BaseName(p) == p
  {
    if |p| > 0 {
      var q := p[..|p| - 1];
      assert '/' !in q by {
        forall k | 0 <= k < |q|
          ensures q[k] != '/'
        {
          assert q[k] == p[k];
        }
      }
      BaseNameOfPlainName(q);
      assert p == q + [p[|p| - 1]];
    }
  }

  /** The marker appended to the title of a modified document. */
  const ModifiedMark := " *"

  /** The title a tab shows for its document. */
  function TitleFor(d: Document): string {
    DisplayName(d) + (if d.isModified then ModifiedMark else "")
  }

  /** The title carries the modified marker exactly when the document has
      unsaved changes. */
  lemma TitleShowsModified(d: Document)
    ensures TitleFor(d) == DisplayName(d) + ModifiedMark <==> d.isModified
    ensures !d.isModified ==> TitleFor(d) == DisplayName(d)
  {
    if !d.isModified {
      assert |TitleFor(d)| != |DisplayName(d) + ModifiedMark|;
    }
  }

  datatype Tab = Tab(id: TabId, doc: Document, text: string, title: string)

  /** The tab list, the current index (-1 while there are no tabs, as in the
      toolkit) and the next unused tab identity. */
  datatype TabWidget = TabWidget(tabs: seq<Tab>, current: int, nextTab: TabId)

  /** Signals the widget emits explicitly. */
  datatype Signal = CurrentDocumentChanged | LastTabClosed

  /** Tab identities are distinct and all below `nextTab`, and every title
      matches its document. */
  ghost predicate WellFormed(w: TabWidget) {
    && (forall i, j :: 0 <= i < j < |w.tabs| ==> w.tabs[i].id != w.tabs[j].id)
    && (forall i :: 0 <= i < |w.tabs| ==> w.tabs[i].id < w.nextTab)
    && (forall i :: 0 <= i < |w.tabs| ==> w.tabs[i].title == TitleFor(w.tabs[i].doc))
  }

  /** A widget as its operations keep it: well formed, at least one tab, and
      the current index on a tab. */
  ghost predicate Valid(w: TabWidget) {
    WellFormed(w) && 1 <= |w.tabs| && 0 <= w.current < |w.tabs|
  }

  /** Whether a tab with identity `id` is in the list (`tab in self._tabs`). */
  predicate Has(w: TabWidget, id: TabId) {
    exists i :: 0 <= i < |w.tabs| && w.tabs[i].id == id
  }

  /** Position of the first tab with identity `id` (`self._tabs.index(tab)`). */
  function IndexOf(tabs: seq<Tab>, id: TabId): (r: Option<nat>)
    ensures r.Some? ==> r.value < |tabs| && tabs[r.value].id == id
    ensures r.Some? ==> forall k :: 0 <= k < r.value ==> tabs[k].id != id
    ensures r.None? <==> forall k :: 0 <= k < |tabs| ==> tabs[k].id != id
  {
    if |tabs| == 0 then None
    else if tabs[0].id == id then Some(0)
    else match IndexOf(tabs[1..], id)
      case Some(k) => Some(k + 1)
      case None => None
  }

  /** The widget with no tabs that the constructor starts from. */
  const Empty := TabWidget([], -1, 0)

  /** `new_tab`: appends one tab at the end and makes it current. A non-empty
      path whose read succeeds fills the tab with the file; an empty path or a
      failed read leaves a fresh, empty document. */
  function NewTab(w: TabWidget, filePath: string, read: Option<string>): (r: (TabWidget, TabId))
    requires WellFormed(w)
    ensures WellFormed(r.0)
    ensures |r.0.tabs| == |w.tabs| + 1 && r.0.tabs[..|w.tabs|] == w.tabs
    ensures r.0.current == |w.tabs| && r.0.tabs[r.0.current].id == r.1
    ensures !Has(w, r.1)
    ensures var t := r.0.tabs[|w.tabs|];
      if filePath != "" && read.Some? then
        t.doc == Document(Some(filePath), false) && t.text == read.value
      else
        t.doc == NewDocument && t.text == ""
  {
    var loaded := filePath != "" && read.Some?;
    var doc := if loaded then Document(Some(filePath), false) else NewDocument;
    var text := if loaded then read.value else "";
    var tab := Tab(w.nextTab, doc, text, DisplayName(doc));
    AppendWellFormed(w, tab);
    (TabWidget(w.tabs + [tab], |w.tabs|, w.nextTab + 1), w.nextTab)
  }

  lemma AppendWellFormed(w: TabWidget, tab: Tab)
    requires WellFormed(w)
    requires tab.id == w.nextTab && tab.title == TitleFor(tab.doc)
    ensures WellFormed(TabWidget(w.tabs + [tab], |w.tabs|, w.nextTab + 1))
    ensures forall k :: 0 <= k < |w.tabs| ==> w.tabs[k].id != tab.id
  {
    var ts := w.tabs + [tab];
    assert forall k :: 0 <= k < |ts| ==> ts[k] == if k < |w.tabs| then w.tabs[k] else tab;
  }

  /** The widget as constructed: `new_tab()` applied to no tabs. */
  function Initial(): (r: TabWidget)
    ensures Valid(r) && |r.tabs| == 1
    ensures r.tabs[0].doc == NewDocument && r.tabs[0].text == ""
  {
    NewTab(Empty, "", None).0
  }

  /** The widget with the tab at position `i` replaced. */
  function SetTab(w: TabWidget, i: nat, t: Tab): TabWidget
    requires i < |w.tabs|
  {
    w.(tabs := w.tabs[i := t])
  }

  /** `_update_tab_title`: the tab's title is recomputed from its document;
      a tab that is not in the list is ignored. */
  function UpdateTabTitle(w: TabWidget, id: TabId): (r: TabWidget)
    ensures |r.tabs| == |w.tabs| && r.current == w.current && r.nextTab == w.nextTab
    ensures forall i :: 0 <= i < |w.tabs| ==>
      r.tabs[i] == if w.tabs[i].id == id && IndexOf(w.tabs, id) == Some(i)
                   then w.tabs[i].(title := TitleFor(w.tabs[i].doc)) else w.tabs[i]
    ensures !Has(w, id) ==> r == w
  {
    match IndexOf(w.tabs, id)
    case None => w
    case Some(i) => SetTab(w, i, w.tabs[i].(title := TitleFor(w.tabs[i].doc)))
  }

  /** Setting a tab's document and text and then retitling it by identity
      is `Rewrite`: identities are unique, so the retitle finds that tab. */
  lemma RewriteIsUpdateTitle(w: TabWidget, i: nat, d: Document, text: string)
    requires WellFormed(w) && i < |w.tabs|
    ensures UpdateTabTitle(SetTab(w, i, w.tabs[i].(doc := d, text := text)), w.tabs[i].id) == Rewrite(w, i, d, text)
  {
    var id := w.tabs[i].id;
    var w1 := SetTab(w, i, w.tabs[i].(doc := d, text := text));
    var r := IndexOf(w1.tabs, id);
    assert w1.tabs[i].id == id;
    assert r.Some?;
    assert w1.tabs[r.value].id == w.tabs[r.value].id;
    IdentifiesOne(w, id, i);
  }

  /** `_on_text_changed`: an edit marks the tab modified and retitles it; the
      change is announced only on the first edit after the document was
      clean. A tab not in the list is ignored. */
  function OnTextChanged(w: TabWidget, id: TabId): (r: (TabWidget, seq<Signal>))
    requires WellFormed(w)
    ensures WellFormed(r.0)
    ensures |r.0.tabs| == |w.tabs| && r.0.current == w.current
    ensures forall i :: 0 <= i < |w.tabs| && w.tabs[i].id != id ==> r.0.tabs[i] == w.tabs[i]
    ensures forall i :: 0 <= i < |w.tabs| && w.tabs[i].id == id ==>
      r.0.tabs[i].doc.isModified && r.0.tabs[i].text == w.tabs[i].text &&
      r.0.tabs[i].doc.filePath == w.tabs[i].doc.filePath
    ensures r.1 == [CurrentDocumentChanged] <==> exists i :: 0 <= i < |w.tabs| && w.tabs[i].id == id && !w.tabs[i].doc.isModified
    ensures r.1 != [CurrentDocumentChanged] ==> r == (w, [])
  {
    match IndexOf(w.tabs, id)
    case None => (w, [])
    case Some(i) =>
      IdentifiesOne(w, id, i);
      if w.tabs[i].doc.isModified then (w, [])
      else
        (Rewrite(w, i, w.tabs[i].doc.(isModified := true), w.tabs[i].text), [CurrentDocumentChanged])
  }

  /** In a well-formed widget a tab identity sits at one position only. */
  lemma IdentifiesOne(w: TabWidget, id: TabId, i: nat)
    requires WellFormed(w) && i < |w.tabs| && w.tabs[i].id == id
    ensures forall k :: 0 <= k < |w.tabs| && w.tabs[k].id == id ==> k == i
  {
  }

  /** The widget with the tab at position `i` given document `d` and text
      `text`, and retitled for its new document (`_update_tab_title`). */
  function Rewrite(w: TabWidget, i: nat, d: Document, text: string): (r: TabWidget)
    requires WellFormed(w) && i < |w.tabs|
    ensures WellFormed(r)
    ensures |r.tabs| == |w.tabs| && r.current == w.current && r.nextTab == w.nextTab
    ensures r.tabs[i] == Tab(w.tabs[i].id, d, text, TitleFor(d))
    ensures forall k :: 0 <= k < |w.tabs| && k != i ==> r.tabs[k] == w.tabs[k]
  {
    SetTab(w, i, Tab(w.tabs[i].id, d, text, TitleFor(d)))
  }

  /** A second edit notification changes nothing and announces nothing. */
  lemma OnTextChangedIdempotent(w: TabWidget, id: TabId)
    requires WellFormed(w)
    ensures OnTextChanged(OnTextChanged(w, id).0, id) == (OnTextChanged(w, id).0, [])
  {
  }

  /** Position the toolkit makes current after removing the tab at `removed`
      from a bar whose current position was `cur` and which keeps `remaining`
      tabs: later positions shift down one, and when the current tab itself
      goes, the tab that slid into its place (or the new last tab) is chosen. */
  function CurrentAfterRemove(cur: int, removed: nat, remaining: nat): (r: int)
    requires 1 <= remaining
    requires 0 <= cur <= remaining && removed <= remaining
    ensures 0 <= r < remaining
    ensures cur < removed ==> r == cur
    ensures removed < cur ==> r == cur - 1
    ensures cur == removed && removed < remaining ==> r == removed
    ensures cur == removed && removed == remaining ==> r == remaining - 1
  {
    if removed < cur then cur - 1
    else if removed == cur then (if removed < remaining then removed else remaining - 1)
    else cur
  }

  /** `_close_tab`: a tab not in the list is ignored; the only tab is kept and
      `last_tab_closed` is emitted instead; otherwise exactly that tab goes,
      the others keeping their order. */
  function CloseTab(w: TabWidget, id: TabId): (r: (TabWidget, seq<Signal>))
    requires Valid(w)
    ensures Valid(r.0)
    ensures !Has(w, id) ==> r == (w, [])
    ensures Has(w, id) && |w.tabs| <= 1 ==> r == (w, [LastTabClosed])
    ensures Has(w, id) && |w.tabs| > 1 ==>
      var i := IndexOf(w.tabs, id).value;
      r.1 == [] && |r.0.tabs| == |w.tabs| - 1 && !Has(r.0, id) &&
      r.0.tabs == w.tabs[..i] + w.tabs[i + 1..]
    ensures Has(w, id) && |w.tabs| > 1 ==>
      var i := IndexOf(w.tabs, id).value;
      && (w.current != i ==> r.0.tabs[r.0.current] == w.tabs[w.current])
      && (w.current == i && i < |w.tabs| - 1 ==> r.0.current == i)
      && (w.current == i && i == |w.tabs| - 1 ==> r.0.current == i - 1)
    ensures r.0.nextTab == w.nextTab
  {
    match IndexOf(w.tabs, id)
    case None => (w, [])
    case Some(i) =>
      if |w.tabs| <= 1 then (w, [LastTabClosed])
      else (RemoveAt(w, i), [])
  }

  /** The widget without the tab at position `i`; the current tab stays
      current unless it is the one removed. */
  function RemoveAt(w: TabWidget, i: nat): (r: TabWidget)
    requires Valid(w) && i < |w.tabs| && |w.tabs| > 1
    ensures Valid(r)
    ensures r.tabs == w.tabs[..i] + w.tabs[i + 1..] && r.nextTab == w.nextTab
    ensures !Has(r, w.tabs[i].id)
    ensures w.current != i ==> r.tabs[r.current] == w.tabs[w.current]
    ensures w.current == i && i < |w.tabs| - 1 ==> r.current == i && r.tabs[i] == w.tabs[i + 1]
    ensures w.current == i && i == |w.tabs| - 1 ==> r.current == i - 1 && r.tabs[i - 1] == w.tabs[i - 1]
  {
    var rest := w.tabs[..i] + w.tabs[i + 1..];
    RemoveWellFormed(w, i);
    RemoveKeepsCurrent(w.tabs, w.current, i);
    TabWidget(rest, CurrentAfterRemove(w.current, i, |rest|), w.nextTab)
  }

  lemma RemoveKeepsCurrent(tabs: seq<Tab>, cur: nat, i: nat)
    requires cur < |tabs| && i < |tabs| && |tabs| > 1
    ensures var rest := tabs[..i] + tabs[i + 1..];
      var c := CurrentAfterRemove(cur, i, |rest|);
      cur != i ==> rest[c] == tabs[cur]
  {
    var c := CurrentAfterRemove(cur, i, |tabs| - 1);
    if cur < i {
      SliceAt(tabs, i, c);
    } else if cur > i {
      SliceAt(tabs, i, c);
    }
  }

  lemma RemoveWellFormed(w: TabWidget, i: nat)
    requires WellFormed(w) && i < |w.tabs|
    ensures var rest := w.tabs[..i] + w.tabs[i + 1..];
      && WellFormed(w.(tabs := rest))
      && (forall k :: 0 <= k < |rest| ==> rest[k].id != w.tabs[i].id)
  {
    var rest := w.tabs[..i] + w.tabs[i + 1..];
    forall a, b | 0 <= a < b < |rest|
      ensures rest[a].id != rest[b].id
    {
      SliceAt(w.tabs, i, a);
      SliceAt(w.tabs, i, b);
    }
    forall k | 0 <= k < |rest|
      ensures rest[k].id < w.nextTab && rest[k].title == TitleFor(rest[k].doc) && rest[k].id != w.tabs[i].id
    {
      SliceAt(w.tabs, i, k);
    }
  }

  /** The tabs that remain after closing tab `id` in a widget with more than
      one tab, given independently of positions: every tab except `id`, in
      the original order. */
  function WithoutTab(tabs: seq<Tab>, id: TabId): (r: seq<Tab>)
  {
    if |tabs| == 0 then []
    else (if tabs[0].id == id then [] else [tabs[0]]) + WithoutTab(tabs[1..], id)
  }

  lemma {:induction false} WithoutTabSlice(tabs: seq<Tab>, i: nat)
    requires i < |tabs|
    requires forall a, b :: 0 <= a < b < |tabs| ==> tabs[a].id != tabs[b].id
    ensures WithoutTab(tabs, tabs[i].id) == tabs[..i] + tabs[i + 1..]
  {
    if i == 0 {
      WithoutTabAbsent(tabs[1..], tabs[0].id);
      assert tabs[..0] + tabs[1..] == tabs[1..];
    } else {
      WithoutTabSlice(tabs[1..], i - 1);
      assert tabs[1..][i - 1] == tabs[i];
      assert tabs[1..][..i - 1] == tabs[1..i];
      assert tabs[1..][i..] == tabs[i + 1..];
      assert [tabs[0]] + tabs[1..i] == tabs[..i];
    }
  }

  lemma {:induction false} WithoutTabAbsent(tabs: seq<Tab>, id: TabId)
    requires forall k :: 0 <= k < |tabs| ==> tabs[k].id != id
    ensures WithoutTab(tabs, id) == tabs
  {
    if |tabs| > 0 {
      WithoutTabAbsent(tabs[1..], id);
    }
  }

  /** Closing a tab when there are several agrees with the positional-free
      description: the remaining tabs are exactly the others, in order. */
  lemma CloseTabRemovesExactly(w: TabWidget, id: TabId)
    requires Valid(w)
    requires Has(w, id) && |w.tabs| > 1
    ensures CloseTab(w, id).0.tabs == WithoutTab(w.tabs, id)
  {
    WithoutTabSlice(w.tabs, IndexOf(w.tabs, id).value);
  }

  /** Closing some other tab never changes which tab is current. */
  lemma CloseTabKeepsCurrent(w: TabWidget, id: TabId)
    requires Valid(w)
    requires w.tabs[w.current].id != id
    ensures CurrentTab(CloseTab(w, id).0) == CurrentTab(w)
  {
  }

  /** `current_tab`: the tab at the current index, or nothing when the index
      is off the list. */
  function CurrentTab(w: TabWidget): (r: Option<Tab>)
    ensures r.None? <==> !(0 <= w.current < |w.tabs|)
    ensures r.Some? ==> r.value in w.tabs && r.value == w.tabs[w.current]
  {
    if 0 <= w.current < |w.tabs| then Some(w.tabs[w.current]) else None
  }

  /** `current_document` and `current_editor` (the editor's text). */
  function CurrentDocument(w: TabWidget): (r: Option<Document>)
    ensures r.Some? <==> CurrentTab(w).Some?
    ensures r.Some? ==> r.value == CurrentTab(w).value.doc
  {
    match CurrentTab(w)
    case Some(t) => Some(t.doc)
    case None => None
  }

  function CurrentText(w: TabWidget): (r: Option<string>)
    ensures r.Some? <==> CurrentTab(w).Some?
    ensures r.Some? ==> r.value == CurrentTab(w).value.text
  {
    match CurrentTab(w)
    case Some(t) => Some(t.text)
    case None => None
  }

  /** Whether the current tab can be reused for a file: clean, never saved,
      and empty. */
  predicate Reusable(t: Tab) {
    !t.doc.isModified && t.doc.filePath.None? && t.text == ""
  }

  /** Result of an operation that reports success. */
  datatype Outcome = Outcome(widget: TabWidget, ok: bool, signals: seq<Signal>)

  /** `open_file`: a reusable current tab receives the file in place (and the
      call fails, changing nothing, when the read fails); otherwise a new tab
      is added, and the call reports success even if that tab's read failed. */
  function OpenFile(w: TabWidget, path: string, read: Option<string>): (r: Outcome)
    requires Valid(w)
    ensures Valid(r.widget)
    ensures Reusable(w.tabs[w.current]) ==>
      |r.widget.tabs| == |w.tabs| && r.widget.current == w.current &&
      (read.None? ==> r == Outcome(w, false, [])) &&
      (read.Some? ==>
         && r.ok && r.signals == [CurrentDocumentChanged]
         && r.widget.tabs[w.current].id == w.tabs[w.current].id
         && r.widget.tabs[w.current].doc == Document(Some(path), false)
         && r.widget.tabs[w.current].text == read.value
         && (forall k :: 0 <= k < |w.tabs| && k != w.current ==> r.widget.tabs[k] == w.tabs[k]))
    ensures !Reusable(w.tabs[w.current]) ==>
      r.ok && r.signals == [] && |r.widget.tabs| == |w.tabs| + 1 && r.widget.tabs[..|w.tabs|] == w.tabs &&
      r.widget.current == |w.tabs|
    ensures !Reusable(w.tabs[w.current]) ==>
      var t := r.widget.tabs[|w.tabs|];
      !Has(w, t.id) &&
      if path != "" && read.Some? then
        t.doc == Document(Some(path), false) && t.text == read.value
      else
        t.doc == NewDocument && t.text == ""
  {
    var cur := w.tabs[w.current];
    if Reusable(cur) then
      match read
      case None => Outcome(w, false, [])
      case Some(content) =>
        Outcome(Rewrite(w, w.current, Document(Some(path), false), content), true, [CurrentDocumentChanged])
    else
      Outcome(NewTab(w, path, read).0, true, [])
  }

  /** A write of `content` to the file at `path`. */
  datatype FileWrite = FileWrite(path: string, content: string)

  datatype SaveResult = SaveResult(outcome: Outcome, attempted: Option<FileWrite>)

  /** `save_current`: nothing to save without a current tab or without a
      path; otherwise the editor text is written to the tab's path, and only a
      successful write marks the document clean. */
  function SaveCurrent(w: TabWidget, writeSucceeds: bool): (r: SaveResult)
    requires Valid(w)
    ensures Valid(r.outcome.widget)
    ensures r.outcome.ok <==> w.tabs[w.current].doc.filePath.Some? && writeSucceeds
    ensures r.attempted.Some? <==> w.tabs[w.current].doc.filePath.Some?
    ensures r.attempted.Some? ==>
      r.attempted.value == FileWrite(w.tabs[w.current].doc.filePath.value, w.tabs[w.current].text)
    ensures !r.outcome.ok ==> r.outcome.widget == w && r.outcome.signals == []
    ensures r.outcome.ok ==>
      r.outcome.signals == [CurrentDocumentChanged] &&
      |r.outcome.widget.tabs| == |w.tabs| && r.outcome.widget.current == w.current &&
      r.outcome.widget.tabs[w.current].doc == w.tabs[w.current].doc.(isModified := false) &&
      r.outcome.widget.tabs[w.current].text == w.tabs[w.current].text &&
      forall k :: 0 <= k < |w.tabs| && k != w.current ==> r.outcome.widget.tabs[k] == w.tabs[k]
  {
    var t := w.tabs[w.current];
    match t.doc.filePath
    case None => SaveResult(Outcome(w, false, []), None)
    case Some(p) =>
      var attempt := Some(FileWrite(p, t.text));
      if !writeSucceeds then SaveResult(Outcome(w, false, []), attempt)
      else
        SaveResult(Outcome(Rewrite(w, w.current, t.doc.(isModified := false), t.text), true, [CurrentDocumentChanged]), attempt)
  }

  /** `mark_current_saved`: the current tab takes the given path and becomes
      clean. */
  function MarkCurrentSaved(w: TabWidget, path: string): (r: (TabWidget, seq<Signal>))
    requires Valid(w)
    ensures Valid(r.0)
    ensures r.1 == [CurrentDocumentChanged]
    ensures |r.0.tabs| == |w.tabs| && r.0.current == w.current
    ensures r.0.tabs[w.current].doc == Document(Some(path), false)
    ensures r.0.tabs[w.current].title == DisplayName(Document(Some(path), false))
    ensures r.0.tabs[w.current].text == w.tabs[w.current].text
    ensures forall k :: 0 <= k < |w.tabs| && k != w.current ==> r.0.tabs[k] == w.tabs[k]
  {
    (Rewrite(w, w.current, Document(Some(path), false), w.tabs[w.current].text), [CurrentDocumentChanged])
  }

  /** A freshly added tab can be closed again, which gives back the original
      tab list. */
  lemma NewTabThenClose(w: TabWidget, filePath: string, read: Option<string>)
    requires Valid(w)
    ensures var (w', id) := NewTab(w, filePath, read);
      Valid(w') && CloseTab(w', id).0.tabs == w.tabs
  {
    var (w', id) := NewTab(w, filePath, read);
    assert w'.tabs[|w.tabs|].id == id;
    assert w'.tabs[..|w.tabs|] + w'.tabs[|w.tabs| + 1..] == w.tabs;
  }

  /** An edit after a save makes the document dirty again and announces it. */
  lemma EditAfterSave(w: TabWidget)
    requires Valid(w)
    requires w.tabs[w.current].doc.filePath.Some?
    ensures var saved := SaveCurrent(w, true).outcome.widget;
      var (edited, signals) := OnTextChanged(saved, w.tabs[w.current].id);
      signals == [CurrentDocumentChanged] && edited.tabs[w.current].doc.isModified
  {
    var saved := SaveCurrent(w, true).outcome.widget;
    assert saved.tabs[w.current].id == w.tabs[w.current].id;
  }
}

=== FILE: text_editor.dfy ===
/** The two pieces of the text editor widget that are plain logic: the width
    of the line-number gutter, and the current-line highlight. The width of
    one digit in the editor font is a parameter. */
module TextEditor {

  /** 10 to the power `k`. */
  function Pow10(k: nat): (r: nat)
    ensures r >= 1
  {
    if k == 0 then 1 else 10 * Pow10(k - 1)
  }

  /** Length of the decimal numeral of `n` (`len(str(n))` for `n >= 1`):
      the unique `d` with 10^(d-1) <= n < 10^d. */
  function Digits(n: nat): (d: nat)
    requires n >= 1
    ensures d >= 1
    ensures Pow10(d - 1) <= n < Pow10(d)
  {
    if n < 10 then 1 else 1 + Digits(n / 10)
  }

  /** Any `d` that brackets `n` between consecutive powers of ten is its
      digit count. */
  lemma {:induction false} DigitsUnique(n: nat, d: nat)
    requires n >= 1 && d >= 1
    requires Pow10(d - 1) <= n < Pow10(d)
    ensures Digits(n) == d
  {
    var e := Digits(n);
    if e < d {
      PowMonotone(e, d - 1);
    } else if e > d {
      PowMonotone(d, e - 1);
    }
  }

  lemma {:induction false} PowMonotone(a: nat, b: nat)
    requires a <= b
    ensures Pow10(a) <= Pow10(b)
  {
    if a < b {
      PowMonotone(a, b - 1);
    }
  }

  /** More lines never need fewer digits. */
  lemma {:induction false} DigitsMonotone(m: nat, n: nat)
    requires 1 <= m <= n
    ensures Digits(m) <= Digits(n)
  {
    if Digits(m) > Digits(n) {
      PowMonotone(Digits(n), Digits(m) - 1);
    }
  }

  function Max(a: int, b: int): int {
    if a >= b then a else b
  }

  /** Digit columns the gutter reserves: the digits of the block count (a
      count below one measured as one), but never fewer than three. */
  function Columns(blockCount: int): (c: nat)
    ensures c >= 3
    ensures blockCount < 1000 ==> c == 3
    ensures blockCount >= 1000 ==> c == Digits(blockCount) && c >= 4
  {
    ThreeDigitsBelowThousand(Max(1, blockCount));
    Max(Digits(Max(1, blockCount)), 3)
  }

  /** Numbers below 1000 have at most three digits, larger ones at least four. */
  lemma ThreeDigitsBelowThousand(n: nat)
    requires n >= 1
    ensures n < 1000 <==> Digits(n) <= 3
  {
    if n < 1000 {
      DigitsMonotone(n, 999);
      assert Digits(999) == 3;
    } else {
      DigitsMonotone(1000, n);
      assert Digits(1000) == 4;
    }
  }

  /** `line_number_area_width`: 3 pixels of padding plus one digit width per
      reserved column. */
  function LineNumberAreaWidth(blockCount: int, digitWidth: nat): (r: int)
    ensures r >= 3 + 3 * digitWidth
    ensures blockCount < 1000 ==> r == 3 + 3 * digitWidth
    ensures blockCount >= 1000 ==> r == 3 + digitWidth * Digits(blockCount)
  {
    MulMonotone(digitWidth, 3, Columns(blockCount));
    3 + digitWidth * Columns(blockCount)
  }

  lemma MulMonotone(a: nat, b: nat, c: nat)
    requires b <= c
    ensures a * b <= a * c
  {
  }

  /** The gutter never shrinks as lines are added. */
  lemma WidthMonotone(m: int, n: int, digitWidth: nat)
    requires m <= n
    ensures LineNumberAreaWidth(m, digitWidth) <= LineNumberAreaWidth(n, digitWidth)
  {
    if m >= 1000 {
      DigitsMonotone(m, n);
    }
    MulMonotone(digitWidth, Columns(m), Columns(n));
  }

  /** From 1000 lines on, the gutter widens by one digit width exactly when
      the line count reaches a new power of ten. */
  lemma WidthGrowsWithDigits(n: int, digitWidth: nat)
    requires n >= 1000
    ensures LineNumberAreaWidth(n, digitWidth) - LineNumberAreaWidth(n - 1, digitWidth) ==
      (if n == Pow10(Digits(n) - 1) then digitWidth else 0)
  {
    ColumnsStep(n);
    WidthDiff(digitWidth, Columns(n), Columns(n - 1), n == Pow10(Digits(n) - 1),
              LineNumberAreaWidth(n, digitWidth), LineNumberAreaWidth(n - 1, digitWidth));
  }

  lemma WidthDiff(x: nat, a: nat, b: nat, step: bool, wa: int, wb: int)
    requires a == b + (if step then 1 else 0)
    requires wa == 3 + x * a && wb == 3 + x * b
    ensures wa - wb == (if step then x else 0)
  {
    if step {
      assert x * a == x * b + x;
    }
  }

  /** A new digit column is needed exactly at each power of ten from 1000 on. */
  lemma ColumnsStep(n: int)
    requires n >= 1000
    ensures Columns(n) == Columns(n - 1) + (if n == Pow10(Digits(n) - 1) then 1 else 0)
  {
    if n == 1000 {
      assert Digits(1000) == 4;
      assert Pow10(3) == 1000;
    } else if n == Pow10(Digits(n) - 1) {
      ColumnsAtPower(n);
    } else {
      ColumnsBetweenPowers(n);
    }
  }

  lemma ColumnsAtPower(n: int)
    requires n > 1000
    requires n == Pow10(Digits(n) - 1)
    ensures Columns(n) == Columns(n - 1) + 1
  {
    var d := Digits(n);
    ThreeDigitsBelowThousand(n);
    assert Pow10(d - 1) == 10 * Pow10(d - 2);
    assert Pow10(d - 2) <= n - 1 < Pow10(d - 1);
    DigitsUnique(n - 1, d - 1);
    ThreeDigitsBelowThousand(n - 1);
  }

  lemma ColumnsBetweenPowers(n: int)
    requires n > 1000
    requires n != Pow10(Digits(n) - 1)
    ensures Columns(n) == Columns(n - 1)
  {
    var d := Digits(n);
    ThreeDigitsBelowThousand(n);
    assert Pow10(d - 1) <= n - 1 < Pow10(d);
    DigitsUnique(n - 1, d);
    ThreeDigitsBelowThousand(n - 1);
  }

  /** An empty document is measured like a one-line document. */
  lemma ZeroLinesLikeOne(digitWidth: nat)
    ensures LineNumberAreaWidth(0, digitWidth) == LineNumberAreaWidth(1, digitWidth)
  {
  }

  /** A text cursor: its position and the anchor of its selection. */
  datatype Cursor = Cursor(position: nat, anchor: nat)

  datatype Color = Color(r: nat, g: nat, b: nat)

  /** The background colour of the current-line highlight. */
  const LineColor := Color(50, 50, 50)

  /** An extra selection: a background over the whole width of the line
      holding the cursor, which carries no selected text. */
  datatype ExtraSelection = ExtraSelection(background: Color, fullWidth: bool, cursor: Cursor)

  /** `_highlight_current_line`: no highlight in a read-only editor, and
      otherwise one full-width highlight at the cursor with its selection
      cleared. */
  function HighlightCurrentLine(readOnly: bool, cursor: Cursor): (r: seq<ExtraSelection>)
    ensures |r| == 0 <==> readOnly
    ensures |r| <= 1
    ensures |r| == 1 ==>
      r[0].cursor.position == cursor.position && r[0].cursor.anchor == r[0].cursor.position &&
      r[0].fullWidth && r[0].background == LineColor
  {
    if readOnly then []
    else [ExtraSelection(LineColor, true, Cursor(cursor.position, cursor.position))]
  }
}
